=== FILE: README.md ===
# Random commit history generator — a Dafny model

The script `index.js` fabricates a commit history for a git repository. It asks
three questions:

- the target year, asked again until it is a number from 2008 to the current year;
- a density level (`low`, `medium` or `high`, any letter case), asked again until accepted;
- the weekdays to skip (comma-separated numbers 0 = Sunday .. 6 = Saturday), asked once.

It then walks every day of the target year in order:

- A day whose weekday is skipped is announced and left alone.
- On every other day it draws a commit count from the level's range (`low` 0-2,
  `medium` 1-5, `high` 3-10, 1 for any other level).
- For each commit it draws an hour, a minute and a second, rewrites a marker
  file and commits it, backdated to that moment.
- A failed commit is reported and the walk goes on.

At the end it pushes once; a failed push is also only reported.

The model has one module per concern:

- `Base` holds `Option` and a sequence map.
- `JsText` models the JavaScript string operations the prompts use: `trim`, `split(',')`, `toLowerCase` and `parseInt(_, 10)`.
- `Sampler` models `getRandomInt` and the density `switch`.
- `Calendar` models proleptic Gregorian dates, moment's one-day step, its `day()` weekday numbering and the walk over a year.
- `Validation` models the three prompts' checks and the ask-until-accepted loops.
- `History` models the day loop as a plan (which days are skipped, which commits each other day gets), its execution (attempts that may fail one by one, then the push) and the whole run.
- `Examples` holds concrete answers worked through the general lemmas.

The outside world becomes parameters:

- The current year is a parameter.
- The random source is a function `rand: nat -> nat`. It gives the draw of the n-th call of `getRandomInt`, numbered in the order the script makes the calls.
- The outcome of the n-th commit attempt is `commitOk(n)`, and the push outcome is `pushOk`.
- The answers typed at the prompts are strings.

Planning and execution are separated. No draw depends on whether a commit
succeeded, so drawing the whole plan first and then attempting its commits in
order gives the same commits, in the same order, as the interleaved loop of the
script.

## Model

| member | source | states |
|---|---|---|
| Sampler.Offset | index.js:11 | the offset a draw selects lies below the size of the range, and a draw already below it selects itself |
| Sampler.RandomInt | index.js:8-12 | for integer bounds and an in-range offset the result lies in the inclusive range [min, max] |
| Sampler.RandomIntBijective | index.js:8-12 | offsets and results correspond one to one in both directions, so every value of the range, both endpoints included, comes from exactly one offset (an unbiased offset gives an unbiased result) |
| Sampler.Draw | index.js:8-12 | one call consuming one draw returns a value in [min, max] |
| Sampler.LevelRange | index.js:93-105 | exactly `low`, `medium` and `high` have a range, each non-empty and of non-negative counts; any other level falls to `default` |
| Sampler.CommitCount | index.js:93-105 | `low` yields 0..2, `medium` 1..5, `high` 3..10, each of the three names using one draw; any other level yields exactly 1 and uses no draw |
| Sampler.CommitCountCoversRange | index.js:93-102 | every count of a level's range is produced by some draw |
| Sampler.CommitCountCoversLevels | index.js:93-102 | every count the comments promise is reachable, both ends included: 0 to 2 for `low`, 1 to 5 for `medium`, 3 to 10 for `high`, each from the draw offsetting the level's lower bound |
| Calendar.NextDay | index.js:115 | the day after a valid date is valid, strictly later, and exactly one day number further |
| Calendar.BeforeIffSmallerDayNumber | index.js:81 | chronological order at day granularity holds exactly when the day number is smaller |
| Calendar.DayNumberInjective | index.js:81 | distinct valid dates never share a day number |
| Calendar.Weekday | index.js:82 | the weekday index is always in 0..6 |
| Calendar.NextDayWeekday | index.js:82 | stepping one day advances the weekday by one, wrapping Saturday to Sunday |
| Calendar.WeekdayAnchors | index.js:82 | the numbering is moment's `day()`: 2023-01-01 is a Sunday (0) and 2024-01-01 a Monday (1) |
| Calendar.Walk | index.js:78-81 | the loop from a start day while not after the end day visits end − start + 1 valid days with consecutive day numbers, or none when the start is later |
| Calendar.YearDays | index.js:75-81 | the year's walk has one entry per day number from January 1 to December 31, each a valid date one day after the previous; the leap-year count, the end points and full coverage are stated by Calendar.YearDaysCoverage |
| Calendar.YearDaysCoverage | index.js:75-81 | the walk from January 1 to December 31 has 366 entries exactly in leap years and 365 otherwise; it starts and ends on those days and is strictly increasing; its i-th entry is the i-th day of the year; every valid date of the year appears |
| JsText.TrimStart | index.js:45 | the result is a suffix of the input, everything dropped is whitespace, and it does not start with whitespace |
| JsText.TrimEnd | index.js:45 | the result is a prefix of the input, everything dropped is whitespace, and it does not end with whitespace |
| JsText.Trim | index.js:45 | `trim()`, applied to the year answer and to each skip token (line 69), never lengthens its input and keeps no whitespace at either end; that it keeps one slice, drops only whitespace and is idempotent is stated by JsText.TrimIsInfix, TrimRemovesOnlyWhitespace and TrimIdempotent |
| JsText.TrimIsInfix | index.js:45 | `trim` keeps one contiguous stretch of its input |
| JsText.TrimRemovesOnlyWhitespace | index.js:45 | everything `trim` cuts off on either side is whitespace |
| JsText.TrimIdempotent | index.js:45 | trimming twice is trimming once |
| JsText.Split | index.js:69 | `split(',')` yields at least one piece and no piece contains the separator |
| JsText.JoinSplit | index.js:69 | joining the pieces of `split` with the separator gives back the input |
| JsText.SplitJoin | index.js:69 | pieces free of the separator are recovered by splitting their join |
| JsText.SplitConcat | index.js:69 | splitting at a separator splits the two sides independently |
| JsText.SplitWithoutSeparator | index.js:69 | a string without the separator splits into itself alone |
| JsText.ToLower | index.js:58 | the result has the input's length and no ASCII capital; capitals move down by 32 and every other character is kept |
| JsText.LeadingDigits | index.js:45 | the longest prefix made of decimal digits: it is a prefix, all digits, and followed by a non-digit or the end |
| JsText.ParseInt | index.js:45 | `parseInt(s, 10)` gives a number only when the input holds a digit; which number, and when NaN, is stated by JsText.ParseIntDigits, DigitsValueLeadingZero, ParseIntShowInt, ParseIntNaN and ParseIntIgnoresTrim |
| JsText.ParseIntDigits | index.js:45 | any numeral after leading blanks is read: an optional `+` or `-`, then every digit up to the first non-digit, leading zeros included; `+` and no sign give the digits' value and `-` its negation |
| JsText.DigitsValueLeadingZero | index.js:45 | a leading zero does not change a digit run's value, so `07` and `02024` read as 7 and 2024 |
| JsText.ParseIntShowInt | index.js:45 | `parseInt` reads back any integer written in decimal, whatever whitespace precedes it and whatever non-digit text follows it |
| JsText.ParseIntNaN | index.js:48 | with no digit after the blanks and an optional sign, `parseInt` gives NaN |
| JsText.ParseIntIgnoresTrim | index.js:45 | trimming before `parseInt` changes nothing |
| JsText.ParseNumeralIgnoresTail | index.js:45 | whitespace after the numeral does not change the number read, and blanks alone read as NaN like the empty string |
| Validation.ParseYear | index.js:43-53 | an accepted year lies in 2008..current year and is what `parseInt` reads from the answer |
| Validation.YearAcceptedIff | index.js:45-48 | an answer is accepted exactly when `parseInt` reads a number from it and that number lies in 2008..current year |
| Validation.YearInRangeAccepted | index.js:45-48 | every year of the allowed range, written in decimal with any surrounding whitespace, is accepted |
| Validation.ParseLevel | index.js:58-61 | an accepted level is one of `low`, `medium`, `high` |
| Validation.LevelAcceptedIff | index.js:58-59 | an answer is accepted as a given level exactly when it spells that level's name ignoring ASCII case, with nothing around it |
| Validation.ParseTokens | index.js:69 | one value per token, each the `parseInt` of the trimmed token |
| Validation.KeepWeekdays | index.js:69 | the filter keeps at most as many values as it is given, all of them in 0..6 |
| Validation.KeepWeekdaysMembers | index.js:69 | a value survives the filter exactly when it was a number in the list and lies in 0..6 |
| Validation.KeepWeekdaysConcat | index.js:69 | the filter works element by element, preserving order |
| Validation.ParseSkipDays | index.js:69 | every skipped weekday is in 0..6 |
| Validation.SkipDaysMembers | index.js:69 | a weekday is skipped exactly when it is in 0..6 and some comma-separated token reads as it |
| Validation.SkipDaysConcat | index.js:69 | the two sides of a comma contribute independently, in order |
| Validation.SkipDaysToken | index.js:69 | a single token skips its number when that is in 0..6, and nothing otherwise (NaN included) |
| Validation.FirstAccepted | index.js:43-65 | the ask-until-accepted loop returns the first accepted answer, every earlier answer being rejected, and returns nothing exactly when every answer is rejected |
| Validation.CollectParameters | index.js:43-69 | parameters are produced exactly when some year answer and some level answer are accepted; they are then valid, the year and the level are the values of the first accepted year and level answers (every earlier answer rejected), and the skip list is that of the skip answer |
| History.DrawTime | index.js:108-111 | three draws, in the order hour, minute, second, give a valid time of day |
| History.DrawTimeCovers | index.js:108-111 | every valid time of day can be drawn |
| History.PlanCommits | index.js:107-114 | a day's n commits are dated on that day, carry the fixed message, and the i-th is timed by draws 3i .. 3i+2 after the count |
| History.PlanDay | index.js:82-115 | a day is skipped exactly when its weekday is in the skip list and then draws nothing; otherwise it gets exactly the count the density switch draws at the day's first draw, its i-th commit is timed by the three draws that follow the count's draw (3i onwards), and the day uses one draw for the count (none under `default`) plus three per commit |
| History.PlanDays | index.js:81-116 | the loop plans one entry per day, in order, each obeying the per-day rules, and never goes back in the draw sequence |
| History.PlanDaysConcat | index.js:81-116 | planning a run of days is planning its first part and then the rest, the rest starting at the draw where the first part stopped: no day reuses another day's draws |
| History.PlanDaysSingle | index.js:81-116 | one iteration of the loop plans its day with one pass of the body, starting at the current draw |
| History.PlanYear | index.js:75-116 | the year's plan has one entry per day of the year's walk, dated on that day and obeying the loop body's rules; its length and coverage follow from Calendar.YearDaysCoverage in History.PlanYearCoverage |
| History.PlanYearCoverage | index.js:75-116 | the year's plan has 365 or 366 entries, strictly increasing in date, and every date of the year has its entry |
| History.CommitTotalBounds | index.js:91-114 | with a recognised level the total number of commits lies between the level's minimum and maximum times the number of active days |
| History.NoSkipsAllActive | index.js:85-89 | with an empty skip list no day is skipped |
| History.CommitsAvoidSkippedWeekdays | index.js:82-114 | no planned commit falls on a skipped weekday, and every one has a valid date and time and the fixed message |
| History.AcceptedLevelHasRange | index.js:93-105 | a level accepted by the level prompt never reaches the `default` branch |
| History.NoSkipYearTotals | index.js:75-116 | with no skipped weekdays every day of the year is active, and the year's total lies between the level's minimum and maximum times 365 or 366 |
| History.AttemptCommits | index.js:14-27 | each of a day's commits is attempted in turn with its own outcome; a failure does not stop the later attempts; the successes are counted and are at most the attempts |
| History.Execute | index.js:81-124 | every planned commit is attempted once, in plan order; attempt j succeeds as `commitOk(j)` says; successes plus failures equal attempts; skipped days are announced in order; the push comes last and only once |
| History.Run | index.js:43-124 | the run goes ahead exactly when the prompts accept a year and a level; it then attempts exactly the commits planned for those parameters, none on a skipped weekday, and ends with the push |
| Examples.YearExampleAccepted | index.js:45-48 | `"2024"` is accepted when the current year is 2026 |
| Examples.YearExampleLenient | index.js:45 | `" 2024abc"` is accepted as 2024 |
| Examples.YearExampleTooEarly | index.js:48 | `"2007"` is rejected |
| Examples.YearExampleTooLate | index.js:48 | `"2027"` is rejected when the current year is 2026 |
| Examples.YearExamplesNaN | index.js:48 | `"abc"` and the empty answer are rejected |
| Examples.LevelExamples | index.js:58-59 | `"HIGH"`, `"Medium"` and `"low"` are accepted; `"hi"`, `" low"` and the empty answer are not |
| Examples.SkipDaysEmpty | index.js:69 | an empty skip answer skips no day |
| Examples.SkipDaysExample | index.js:69 | `"2,abc,9,3"` skips exactly weekdays 2 and 3, in that order |

## Left out

- Reading the terminal (`readline`) is not modelled: each prompt's answers are given as a list of strings.
- Console output is not modelled. The announcement of a skipped day, the report of each attempt and the push are kept as log events.
- Writing `data.json` and the `simple-git` calls are not modelled. They are foreign calls, represented only by their outcome: `commitOk` per attempt and `pushOk` for the push.
- History.Run: the script asks forever until a year and a level are accepted; over a finite list of answers the model returns `None` when the list runs out first.
- Sampler.Offset: `Math.floor(Math.random() * size)` on floating point becomes `draw % size` on an abstract natural number. Only which offset is chosen matters, and every offset is reachable.
- Validation.ParseYear: `moment().year()` is read afresh on each attempt; the model takes one current year for the whole prompt, which only differs if a new year begins while the operator is answering.
- JsText.ToLower: only ASCII letters are folded. No non-ASCII character lower-cases to a word of `low`, `medium` or `high`, so acceptance is the same.
- JsText.ParseInt: it works on unbounded integers, not on IEEE doubles. All the decisions taken on its result are comparisons with small integers (2008, the current year, 0 and 6), and those come out the same.
- Characters are Unicode scalar values rather than UTF-16 code units. Whitespace is ECMAScript's WhiteSpace and LineTerminator set. Those characters, the digits and the letters the checks look at all lie in the Basic Multilingual Plane, so no decision changes.
- History.DrawTime: moment's time zone, daylight-saving adjustments and the ISO text `format()` produces are not modelled. A commit's timestamp is its date together with the drawn hour, minute and second.
- The skip list keeps duplicates as the script's `filter` does. It is not turned into a set, and membership is all that is used.
- The level answer is not trimmed, as in the script; `" low"` is rejected.
- History.NoSkipYearTotals states the totals for every year rather than for one literal year; for 2023 at level `low` with no skipped weekday that is 365 days and 0 to 730 commits.

=== FILE: base.dfy ===
/** The optional value used where the script gets NaN, a rejected input, or
    the fall-through of a `switch`. */
module Base {

  datatype Option<+T> = None | Some(value: T)

  /** `f` applied to each element of `s`, in order. */
  function Map<A, B>(s: seq<A>, f: A -> B): (r: seq<B>)
    ensures |r| == |s|
    ensures forall i :: 0 <= i < |s| ==> r[i] == f(s[i])
  {
    seq(|s|, i requires 0 <= i < |s| => f(s[i]))
  }

  lemma MapConcat<A, B>(s: seq<A>, t: seq<A>, f: A -> B)
    ensures Map(s + t, f) == Map(s, f) + Map(t, f)
  {
    var l, r := Map(s + t, f), Map(s, f) + Map(t, f);
    forall i | 0 <= i < |l|
      ensures l[i] == r[i]
    {
      if i < |s| {
        assert (s + t)[i] == s[i];
      } else {
        assert (s + t)[i] == t[i - |s|];
      }
    }
  }

  lemma EmptyConcat<T>(s: seq<T>)
    ensures [] + s == s
  {
  }

  lemma ConsConcat<T>(x: T, s: seq<T>, t: seq<T>)
    ensures [x] + (s + t) == ([x] + s) + t
  {
  }

  lemma AssocConcat<T>(a: seq<T>, b: seq<T>, c: seq<T>, d: seq<T>)
    ensures a + b + c + d == a + (b + c + d)
  {
  }

  lemma TailConcat<T>(s: seq<T>, t: seq<T>)
    requires |s| > 0
    ensures (s + t)[0] == s[0] && (s + t)[1..] == s[1..] + t
  {
  }
}

=== FILE: calendar.dfy ===
/** Proleptic Gregorian calendar dates, the day-after step the history loop
    takes, the weekday numbering it skips by (0 = Sunday), and the walk over
    every day of a target year. Dates are plain (year, month, day) triples:
    local time zones and daylight-saving shifts are not modelled. */
module Calendar {

  datatype Date = Date(year: int, month: int, day: int)

  /** A leap year is divisible by 4 and not by 100, or divisible by 400. */
  predicate IsLeapYear(y: int) {
    (y % 4 == 0 && y % 100 != 0) || y % 400 == 0
  }

  function DaysInYear(y: int): int {
    if IsLeapYear(y) then 366 else 365
  }

  function DaysInMonth(y: int, m: int): (n: int)
    requires 1 <= m <= 12
    ensures 28 <= n <= 31
    ensures m == 2 ==> (n == 29 <==> IsLeapYear(y))
  {
    if m == 2 then (if IsLeapYear(y) then 29 else 28)
    else if m == 4 || m == 6 || m == 9 || m == 11 then 30
    else 31
  }

  predicate Valid(d: Date) {
    d.year >= 1 && 1 <= d.month <= 12 && 1 <= d.day <= DaysInMonth(d.year, d.month)
  }

  /** Number of days in the months of year `y` before month `m`. */
  function DaysBeforeMonth(y: int, m: int): nat
    requires 1 <= m <= 13
  {
    if m == 1 then 0 else DaysBeforeMonth(y, m - 1) + DaysInMonth(y, m - 1)
  }

  /** The twelve months together make up the year. */
  lemma DaysBeforeMonthYear(y: int)
    ensures DaysBeforeMonth(y, 13) == DaysInYear(y)
  {
    assert DaysBeforeMonth(y, 2) == 31;
    assert DaysBeforeMonth(y, 3) == 31 + DaysInMonth(y, 2);
    assert DaysBeforeMonth(y, 4) == DaysBeforeMonth(y, 3) + 31;
    assert DaysBeforeMonth(y, 5) == DaysBeforeMonth(y, 3) + 61;
    assert DaysBeforeMonth(y, 6) == DaysBeforeMonth(y, 3) + 92;
    assert DaysBeforeMonth(y, 7) == DaysBeforeMonth(y, 3) + 122;
    assert DaysBeforeMonth(y, 8) == DaysBeforeMonth(y, 3) + 153;
    assert DaysBeforeMonth(y, 9) == DaysBeforeMonth(y, 3) + 184;
    assert DaysBeforeMonth(y, 10) == DaysBeforeMonth(y, 3) + 214;
    assert DaysBeforeMonth(y, 11) == DaysBeforeMonth(y, 3) + 245;
    assert DaysBeforeMonth(y, 12) == DaysBeforeMonth(y, 3) + 275;
  }

  lemma {:induction false} DaysBeforeMonthMonotone(y: int, m: int, m': int)
    requires 1 <= m <= m' <= 13
    ensures DaysBeforeMonth(y, m) <= DaysBeforeMonth(y, m')
    decreases m' - m
  {
    if m < m' {
      DaysBeforeMonthMonotone(y, m, m' - 1);
    }
  }

  /** Days in the years 1 .. y-1 of the proleptic Gregorian calendar. */
  function DaysBeforeYear(y: int): nat
    requires y >= 1
  {
    365 * (y - 1) + (y - 1) / 4 - (y - 1) / 100 + (y - 1) / 400
  }

  lemma DaysBeforeNextYear(y: int)
    requires y >= 1
    ensures DaysBeforeYear(y + 1) == DaysBeforeYear(y) + DaysInYear(y)
  {
    DivStep(y, 4);
    DivStep(y, 100);
    DivStep(y, 400);
    LeapDay(y);
  }

  /** Going from `y - 1` to `y` passes one more multiple of `k` exactly
      when `k` divides `y`. */
  lemma DivStep(y: int, k: int)
    requires y >= 1 && (k == 4 || k == 100 || k == 400)
    ensures y / k - (y - 1) / k == if y % k == 0 then 1 else 0
  {
  }

  /** The leap day is counted by the 4-, 100- and 400-year rules together. */
  lemma LeapDay(y: int)
    ensures (if y % 4 == 0 then 1 else 0) - (if y % 100 == 0 then 1 else 0) + (if y % 400 == 0 then 1 else 0)
            == DaysInYear(y) - 365
  {
    if y % 400 == 0 {
      CenturyOfFourCenturies(y);
      LeapOfCentury(y);
    } else if y % 100 == 0 {
      LeapOfCentury(y);
    }
  }

  lemma CenturyOfFourCenturies(y: int)
    requires y % 400 == 0
    ensures y % 100 == 0
  {
    assert y == 100 * (4 * (y / 400));
  }

  lemma LeapOfCentury(y: int)
    requires y % 100 == 0
    ensures y % 4 == 0
  {
    assert y == 4 * (25 * (y / 100));
  }

  lemma {:induction false} DaysBeforeYearMonotone(y: int, y': int)
    requires 1 <= y <= y'
    ensures DaysBeforeYear(y) + (y' - y) * 365 <= DaysBeforeYear(y')
    decreases y' - y
  {
    if y < y' {
      DaysBeforeYearMonotone(y, y' - 1);
      DaysBeforeNextYear(y' - 1);
    }
  }

  /** Zero-based position of `d` within its year. */
  function DayOfYear(d: Date): (n: int)
    requires Valid(d)
    ensures 0 <= n < DaysInYear(d.year)
  {
    DaysBeforeMonthMonotone(d.year, d.month + 1, 13);
    DaysBeforeMonthYear(d.year);
    DaysBeforeMonth(d.year, d.month) + d.day - 1
  }

  /** Days elapsed since 0001-01-01 (which is day 0). */
  function DayNumber(d: Date): nat
    requires Valid(d)
  {
    DaysBeforeYear(d.year) + DayOfYear(d)
  }

  /** Weekday index as moment's `day()` reports it: 0 = Sunday .. 6 = Saturday.
      0001-01-01 of the proleptic Gregorian calendar was a Monday. */
  function Weekday(d: Date): (w: int)
    requires Valid(d)
    ensures 0 <= w <= 6
  {
    (DayNumber(d) + 1) % 7
  }

  /** Strict chronological order at day granularity. */
  predicate Before(a: Date, b: Date) {
    a.year < b.year
    || (a.year == b.year && a.month < b.month)
    || (a.year == b.year && a.month == b.month && a.day < b.day)
  }

  /** moment's `isSameOrBefore(end, 'day')`. */
  predicate SameOrBefore(a: Date, b: Date) {
    !Before(b, a)
  }

  /** The calendar day after `d` (moment's `add(1, 'day')`). */
  function NextDay(d: Date): (r: Date)
    requires Valid(d)
    ensures Valid(r)
    ensures Before(d, r)
    ensures DayNumber(r) == DayNumber(d) + 1
  {
    if d.day < DaysInMonth(d.year, d.month) then
      Date(d.year, d.month, d.day + 1)
    else if d.month < 12 then
      assert DaysBeforeMonth(d.year, d.month + 1) == DaysBeforeMonth(d.year, d.month) + d.day;
      Date(d.year, d.month + 1, 1)
    else
      DaysBeforeMonthYear(d.year);
      DaysBeforeNextYear(d.year);
      assert DayOfYear(d) == DaysInYear(d.year) - 1;
      Date(d.year + 1, 1, 1)
  }

  /** Chronological order and day numbers agree, in both directions. */
  lemma BeforeIffSmallerDayNumber(a: Date, b: Date)
    requires Valid(a) && Valid(b)
    ensures Before(a, b) <==> DayNumber(a) < DayNumber(b)
  {
    if Before(a, b) {
      BeforeHasSmallerDayNumber(a, b);
    } else if a == b {
    } else {
      assert Before(b, a);
      BeforeHasSmallerDayNumber(b, a);
    }
  }

  lemma BeforeHasSmallerDayNumber(a: Date, b: Date)
    requires Valid(a) && Valid(b) && Before(a, b)
    ensures DayNumber(a) < DayNumber(b)
  {
    if a.year < b.year {
      DaysBeforeMonthMonotone(a.year, a.month + 1, 13);
      DaysBeforeMonthYear(a.year);
      DaysBeforeNextYear(a.year);
      DaysBeforeYearMonotone(a.year + 1, b.year);
    } else if a.month < b.month {
      DaysBeforeMonthMonotone(a.year, a.month + 1, b.month);
    }
  }

  /** Distinct valid dates have distinct day numbers. */
  lemma DayNumberInjective(a: Date, b: Date)
    requires Valid(a) && Valid(b) && DayNumber(a) == DayNumber(b)
    ensures a == b
  {
    BeforeIffSmallerDayNumber(a, b);
    BeforeIffSmallerDayNumber(b, a);
  }

  /** Consecutive days have consecutive weekdays. */
  lemma NextDayWeekday(d: Date)
    requires Valid(d)
    ensures Weekday(NextDay(d)) == (Weekday(d) + 1) % 7
  {
    var n := DayNumber(d) + 1;
    assert Weekday(NextDay(d)) == (n + 1) % 7;
    ModSevenStep(n);
  }

  /** Counting on by one moves the remainder modulo 7 on by one. */
  lemma ModSevenStep(n: int)
    ensures (n + 1) % 7 == (n % 7 + 1) % 7
  {
    assert n == 7 * (n / 7) + n % 7;
  }

  /** The numbering agrees with the calendar: 2023 began on a Sunday and
      2024 on a Monday. */
  lemma WeekdayAnchors()
    ensures Weekday(Date(2023, 1, 1)) == 0
    ensures Weekday(Date(2024, 1, 1)) == 1
  {
    assert DayNumber(Date(2023, 1, 1)) == 738520;
    assert DayNumber(Date(2024, 1, 1)) == 738885;
  }

  /** The loop of the history generator: starting at `cur`, visit each day
      while it is the same day as `end` or before it, stepping one day at a time. */
  function Walk(cur: Date, end: Date): (days: seq<Date>)
    requires Valid(cur) && Valid(end)
    ensures |days| == if Before(end, cur) then 0 else DayNumber(end) - DayNumber(cur) + 1
    ensures forall i :: 0 <= i < |days| ==> Valid(days[i]) && DayNumber(days[i]) == DayNumber(cur) + i
    decreases DayNumber(end) - DayNumber(cur)
  {
    BeforeIffSmallerDayNumber(end, cur);
    if Before(end, cur) then []
    else
      var rest := Walk(NextDay(cur), end);
      BeforeIffSmallerDayNumber(end, NextDay(cur));
      [cur] + rest
  }

  function FirstDay(y: int): Date { Date(y, 1, 1) }

  function LastDay(y: int): Date { Date(y, 12, 31) }

  /** Every day of year `y`, from January 1 to December 31. */
  function YearDays(y: int): (days: seq<Date>)
    requires y >= 1
    ensures |days| == DayNumber(LastDay(y)) - DayNumber(FirstDay(y)) + 1
    ensures forall i :: 0 <= i < |days| ==> Valid(days[i]) && DayNumber(days[i]) == DayNumber(FirstDay(y)) + i
  {
    Walk(FirstDay(y), LastDay(y))
  }

  /** The walk over a year visits each of its dates exactly once, in
      strictly increasing order: 366 days in a leap year, 365 otherwise. */
  lemma YearDaysCoverage(y: int)
    requires y >= 1
    ensures |YearDays(y)| == DaysInYear(y)
    ensures |YearDays(y)| == 366 <==> IsLeapYear(y)
    ensures YearDays(y)[0] == FirstDay(y)
    ensures YearDays(y)[|YearDays(y)| - 1] == LastDay(y)
    ensures forall i :: 0 <= i < |YearDays(y)| ==>
              Valid(YearDays(y)[i]) && YearDays(y)[i].year == y && DayOfYear(YearDays(y)[i]) == i
    ensures forall i, j :: 0 <= i < j < |YearDays(y)| ==> Before(YearDays(y)[i], YearDays(y)[j])
    ensures forall d :: Valid(d) && d.year == y ==> d in YearDays(y)
  {
    var days := YearDays(y);
    var first, last := FirstDay(y), LastDay(y);
    DaysBeforeMonthYear(y);
    assert DayNumber(last) == DayNumber(first) + DaysInYear(y) - 1;
    assert |days| == DaysInYear(y);
    DayNumberInjective(days[0], first);
    DayNumberInjective(days[|days| - 1], last);
    forall i | 0 <= i < |days|
      ensures Valid(days[i]) && days[i].year == y && DayOfYear(days[i]) == i
    {
      BeforeIffSmallerDayNumber(days[i], first);
      BeforeIffSmallerDayNumber(last, days[i]);
    }
    forall i, j | 0 <= i < j < |days|
      ensures Before(days[i], days[j])
    {
      BeforeIffSmallerDayNumber(days[i], days[j]);
    }
    forall d | Valid(d) && d.year == y
      ensures d in days
    {
      var i := DayOfYear(d);
      DayNumberInjective(days[i], d);
    }
  }
}

=== FILE: examples.dfy ===
/** Concrete answers to the three prompts, worked through the general
    lemmas of JsText and Validation. */
module Examples {
  import opened Base
  import opened JsText
  import opened Validation

  /** The decimal rendering of 2007, 2024 and 2027, digit by digit. */
  lemma ShowYears()
    ensures ShowInt(2007) == "2007" && ShowInt(2024) == "2024" && ShowInt(2027) == "2027"
  {
    assert ShowNat(2) == "2";
    assert ShowNat(20) == "20";
    assert ShowNat(200) == "200";
    assert ShowNat(202) == "202";
  }

  /** A year in range is accepted. */
  lemma YearExampleAccepted()
    ensures ParseYear("2024", 2026) == Some(2024)
  {
    ShowYears();
    assert "2024" == "" + ShowInt(2024) + "";
    YearInRangeAccepted("", 2024, "", 2026);
  }

  /** parseInt is lenient: leading blanks and trailing text are ignored. */
  lemma YearExampleLenient()
    ensures ParseYear(" 2024abc", 2026) == Some(2024)
  {
    ShowYears();
    assert " 2024abc" == " " + ShowInt(2024) + "abc";
    ParseIntShowInt(" ", 2024, "abc");
    YearAcceptedIff(" 2024abc", 2026);
  }

  /** A year before 2008 is rejected. */
  lemma YearExampleTooEarly()
    ensures ParseYear("2007", 2026) == None
  {
    ShowYears();
    assert "2007" == "" + ShowInt(2007) + "";
    ParseIntShowInt("", 2007, "");
    YearAcceptedIff("2007", 2026);
  }

  /** A year after the current one is rejected. */
  lemma YearExampleTooLate()
    ensures ParseYear("2027", 2026) == None
  {
    ShowYears();
    assert "2027" == "" + ShowInt(2027) + "";
    ParseIntShowInt("", 2027, "");
    YearAcceptedIff("2027", 2026);
  }

  /** Answers without a number are rejected. */
  lemma YearExamplesNaN()
    ensures ParseYear("abc", 2026) == None
    ensures ParseYear("", 2026) == None
  {
    assert "abc" == "" + "abc";
    ParseIntNaN("", "abc");
    YearAcceptedIff("abc", 2026);
    assert "" == "" + "";
    ParseIntNaN("", "");
    YearAcceptedIff("", 2026);
  }

  /** Concrete answers to the level prompt. */
  lemma LevelExamples()
    ensures ParseLevel("HIGH") == Some("high")
    ensures ParseLevel("Medium") == Some("medium")
    ensures ParseLevel("low") == Some("low")
    ensures ParseLevel("hi") == None
    ensures ParseLevel(" low") == None
    ensures ParseLevel("") == None
  {
    LevelAcceptedIff("HIGH", "high");
    LevelAcceptedIff("Medium", "medium");
    LevelAcceptedIff("low", "low");
    assert ToLower("hi") == "hi";
    assert ToLower(" low")[0] == ' ';
  }

  /** An empty answer skips no day. */
  lemma SkipDaysEmpty()
    ensures ParseSkipDays("") == []
  {
    assert "" == "" + "";
    ParseIntNaN("", "");
    SkipDaysToken("");
  }

  /** A skip-days answer with a weekday, a word, an out-of-range number
      and another weekday, and the tokens and values it goes through. */
  const SkipAnswer := "2,abc,9,3"
  const SkipTokens := ["2", "abc", "9", "3"]
  const SkipValues: seq<Option<int>> := [Some(2), None, Some(9), Some(3)]

  lemma SkipSplitExample()
    ensures Split(SkipAnswer, ',') == SkipTokens
  {
    SplitJoin(SkipTokens, ',');
    assert Join(SkipTokens, ',') == SkipAnswer;
  }

  lemma SkipDigitExample(d: nat, token: string)
    requires d <= 9 && token == [DigitChar(d)]
    ensures ParseInt(Trim(token)) == Some(d)
  {
    assert token == "" + ShowInt(d) + "";
    ParseIntShowInt("", d, "");
    ParseIntIgnoresTrim(token);
  }

  lemma SkipWordExample()
    ensures ParseInt(Trim("abc")) == None
  {
    assert "abc" == "" + "abc";
    ParseIntNaN("", "abc");
    ParseIntIgnoresTrim("abc");
  }

  lemma SkipTokensExample()
    ensures ParseTokens(SkipTokens) == SkipValues
  {
    forall i | 0 <= i < |SkipTokens|
      ensures ParseInt(Trim(SkipTokens[i])) == SkipValues[i]
    {
      if i == 0 {
        SkipDigitExample(2, "2");
      } else if i == 1 {
        SkipWordExample();
      } else if i == 2 {
        SkipDigitExample(9, "9");
      } else {
        SkipDigitExample(3, "3");
      }
    }
    ParseTokensOf(SkipTokens, SkipValues);
  }

  lemma SkipKeepExample()
    ensures KeepWeekdays(SkipValues) == [2, 3]
  {
    assert KeepWeekdays(SkipValues[3..]) == [3];
    assert KeepWeekdays(SkipValues[2..]) == [3];
    assert KeepWeekdays(SkipValues[1..]) == [3];
  }

  /** The word and the 9 are dropped; 2 and 3 are kept in order. */
  lemma SkipDaysExample()
    ensures ParseSkipDays(SkipAnswer) == [2, 3]
  {
    SkipSplitExample();
    SkipTokensExample();
    SkipKeepExample();
  }
}

=== FILE: history.dfy ===
/** The history generator proper: the walk over the target year, the commits
    planned for each day, the commit attempts that may fail one by one, and
    the final push.

    The model separates planning from execution. Every random draw happens
    before any commit of its day is attempted and no draw depends on whether
    an earlier commit succeeded, so drawing the whole plan first and then
    attempting its commits in order gives the same commits in the same order
    as the interleaved loop. */
module History {
  import opened Base
  import opened Calendar
  import opened Sampler
  import opened Validation

  /** The message every generated commit carries. */
  const CommitMessage := "Random activity"

  /** A time of day, as set by `hour`, `minute` and `second`. */
  datatype Time = Time(hour: int, minute: int, second: int)

  predicate ValidTime(t: Time) {
    0 <= t.hour <= 23 && 0 <= t.minute <= 59 && 0 <= t.second <= 59
  }

  /** The three draws of one commit's time, in the order the script makes
      them: hour, then minute, then second. */
  function DrawTime(rand: nat -> nat, next: nat): (t: Time)
    ensures ValidTime(t)
  {
    Time(Draw(0, 23, rand(next)), Draw(0, 59, rand(next + 1)), Draw(0, 59, rand(next + 2)))
  }

  /** Every valid time of day can be drawn: draws equal to its hour, minute
      and second produce it. */
  lemma DrawTimeCovers(rand: nat -> nat, next: nat, t: Time)
    requires ValidTime(t)
    requires rand(next) == t.hour && rand(next + 1) == t.minute && rand(next + 2) == t.second
    ensures DrawTime(rand, next) == t
  {
  }

  /** One commit: the day it is dated on, its time of day and its message. */
  datatype Commit = Commit(date: Date, time: Time, message: string)

  /** The commits of one active day, `n` of them, the i-th timed by the
      draws `next + 3 * i` .. `next + 3 * i + 2`. */
  function PlanCommits(date: Date, n: nat, rand: nat -> nat, next: nat): (cs: seq<Commit>)
    ensures |cs| == n
    ensures forall i :: 0 <= i < n ==>
              cs[i].date == date && cs[i].message == CommitMessage && ValidTime(cs[i].time)
    ensures forall i :: 0 <= i < n ==> cs[i].time == DrawTime(rand, next + 3 * i)
  {
    if n == 0 then []
    else PlanCommits(date, n - 1, rand, next) + [Commit(date, DrawTime(rand, next + 3 * (n - 1)), CommitMessage)]
  }

  /** What happens on one day: nothing when its weekday is skipped,
      otherwise a list of commits. */
  datatype DayPlan =
    | Skipped(date: Date, weekday: int)
    | Active(date: Date, commits: seq<Commit>)

  /** The commit counts a density level can produce in a day. */
  predicate CountAllowed(level: string, n: int) {
    match LevelRange(level)
    case Some(rg) => rg.lo <= n <= rg.hi
    case None => n == 1
  }

  /** A day's plan obeys the rules of the loop body: it is skipped exactly
      when its weekday is among the skipped ones, and otherwise holds an
      allowed number of commits, each dated on that day with a valid time
      and the fixed message. */
  predicate FollowsRules(p: DayPlan, level: string, skipped: seq<int>) {
    && Valid(p.date)
    && (p.Skipped? <==> Weekday(p.date) in skipped)
    && (p.Skipped? ==> p.weekday == Weekday(p.date))
    && (p.Active? ==>
          && CountAllowed(level, |p.commits|)
          && forall i :: 0 <= i < |p.commits| ==>
               p.commits[i].date == p.date && p.commits[i].message == CommitMessage
               && ValidTime(p.commits[i].time))
  }

  /** One pass of the loop body for day `d`, starting at draw `next`; also
      returns the first draw left unused. A skipped day draws nothing; an
      active day draws its count (unless the level falls to `default`) and
      then three draws per commit. */
  function PlanDay(d: Date, level: string, skipped: seq<int>, rand: nat -> nat, next: nat): (r: (DayPlan, nat))
    requires Valid(d)
    ensures r.0.date == d
    ensures FollowsRules(r.0, level, skipped)
    ensures r.0.Skipped? ==> r.1 == next
    ensures r.0.Active? ==>
              r.1 == next + (if LevelRange(level).Some? then 1 else 0) + 3 * |r.0.commits|
    ensures r.0.Active? ==> |r.0.commits| == CommitCount(level, rand, next).0
    ensures r.0.Active? ==> forall i :: 0 <= i < |r.0.commits| ==>
              r.0.commits[i].time == DrawTime(rand, CommitCount(level, rand, next).1 + 3 * i)
  {
    var w := Weekday(d);
    if w in skipped then (Skipped(d, w), next)
    else
      var count := CommitCount(level, rand, next);
      ActiveDayFacts(d, level, skipped, rand, next);
      (Active(d, PlanCommits(d, count.0, rand, count.1)), count.1 + 3 * count.0)
  }

  /** An active day's commits obey the rules, and the day uses its count's
      draw (if any) and three per commit. */
  lemma ActiveDayFacts(d: Date, level: string, skipped: seq<int>, rand: nat -> nat, next: nat)
    requires Valid(d) && Weekday(d) !in skipped
    ensures var count := CommitCount(level, rand, next);
      var p := Active(d, PlanCommits(d, count.0, rand, count.1));
      && FollowsRules(p, level, skipped)
      && count.1 + 3 * count.0 == next + (if LevelRange(level).Some? then 1 else 0) + 3 * |p.commits|
  {
  }

  predicate AllValid(days: seq<Date>) {
    forall i :: 0 <= i < |days| ==> Valid(days[i])
  }

  /** The loop over `days`, threading the draw index from day to day. */
  function PlanDays(days: seq<Date>, level: string, skipped: seq<int>, rand: nat -> nat, next: nat)
    : (r: (seq<DayPlan>, nat))
    requires AllValid(days)
    ensures |r.0| == |days|
    ensures forall i :: 0 <= i < |days| ==> r.0[i].date == days[i]
    ensures forall i :: 0 <= i < |days| ==> FollowsRules(r.0[i], level, skipped)
    ensures next <= r.1
    decreases |days|
  {
    if |days| == 0 then ([], next)
    else
      var day := PlanDay(days[0], level, skipped, rand, next);
      var rest := PlanDays(days[1..], level, skipped, rand, day.1);
      ([day.0] + rest.0, rest.1)
  }

  /** Planning a run of days is planning its first part and then the rest,
      the rest starting at the first draw the first part left unused. */
  lemma {:induction false} PlanDaysConcat(a: seq<Date>, b: seq<Date>, level: string, skipped: seq<int>,
                                          rand: nat -> nat, next: nat)
    requires AllValid(a) && AllValid(b)
    ensures AllValid(a + b)
    ensures var first := PlanDays(a, level, skipped, rand, next);
      var rest := PlanDays(b, level, skipped, rand, first.1);
      PlanDays(a + b, level, skipped, rand, next) == (first.0 + rest.0, rest.1)
    decreases |a|
  {
    if |a| == 0 {
      assert a + b == b;
      assert PlanDays(a, level, skipped, rand, next) == ([], next);
      EmptyConcat(PlanDays(b, level, skipped, rand, next).0);
    } else {
      var day := PlanDay(a[0], level, skipped, rand, next);
      var rest := PlanDays(a[1..], level, skipped, rand, day.1);
      var more := PlanDays(b, level, skipped, rand, rest.1);
      assert PlanDays(a + b, level, skipped, rand, next) == ([day.0] + (rest.0 + more.0), more.1) by {
        TailConcat(a, b);
        PlanDaysConcat(a[1..], b, level, skipped, rand, day.1);
      }
      assert PlanDays(a, level, skipped, rand, next) == ([day.0] + rest.0, rest.1);
      ConsConcat(day.0, rest.0, more.0);
    }
  }

  /** A single day is planned by one pass of the loop body. */
  lemma PlanDaysSingle(d: Date, level: string, skipped: seq<int>, rand: nat -> nat, next: nat)
    requires Valid(d)
    ensures PlanDays([d], level, skipped, rand, next) ==
              ([PlanDay(d, level, skipped, rand, next).0], PlanDay(d, level, skipped, rand, next).1)
  {
    var day := PlanDay(d, level, skipped, rand, next);
    assert [d][0] == d && [d][1..] == [];
    assert PlanDays([], level, skipped, rand, day.1) == ([], day.1);
    assert [day.0] + [] == [day.0];
  }

  /** The plan for a whole target year, drawing from the first draw on. */
  function PlanYear(year: int, level: string, skipped: seq<int>, rand: nat -> nat): (plan: seq<DayPlan>)
    requires year >= 1
    ensures |plan| == |YearDays(year)|
    ensures forall i :: 0 <= i < |plan| ==>
              plan[i].date == YearDays(year)[i] && FollowsRules(plan[i], level, skipped)
  {
    PlanDays(YearDays(year), level, skipped, rand, 0).0
  }

  /** The plan of a year has one entry per day of the year, 366 in a leap
      year and 365 otherwise, in strictly increasing date order, and every
      date of the year has its entry. */
  lemma PlanYearCoverage(year: int, level: string, skipped: seq<int>, rand: nat -> nat)
    requires year >= 1
    ensures var plan := PlanYear(year, level, skipped, rand);
      && |plan| == DaysInYear(year)
      && (forall i, j :: 0 <= i < j < |plan| ==> Before(plan[i].date, plan[j].date))
      && (forall d :: Valid(d) && d.year == year ==> exists i :: 0 <= i < |plan| && plan[i].date == d)
  {
    YearDaysCoverage(year);
    DatesCarryOver(PlanYear(year, level, skipped, rand), YearDays(year), year);
  }

  /** A plan dated day by day along a list of dates is ordered and complete
      whenever the list is. */
  lemma DatesCarryOver(plan: seq<DayPlan>, days: seq<Date>, year: int)
    requires |plan| == |days|
    requires forall i :: 0 <= i < |days| ==> plan[i].date == days[i]
    requires forall i, j :: 0 <= i < j < |days| ==> Before(days[i], days[j])
    requires forall d :: Valid(d) && d.year == year ==> d in days
    ensures forall i, j :: 0 <= i < j < |plan| ==> Before(plan[i].date, plan[j].date)
    ensures forall d :: Valid(d) && d.year == year ==> exists i :: 0 <= i < |plan| && plan[i].date == d
  {
    forall d | Valid(d) && d.year == year
      ensures exists i :: 0 <= i < |plan| && plan[i].date == d
    {
      var i :| 0 <= i < |days| && days[i] == d;
      assert plan[i].date == d;
    }
  }

  // ---------------------------------------------------------------- totals

  /** The commits a day's plan makes. */
  function CommitsOf(p: DayPlan): seq<Commit> {
    if p.Active? then p.commits else []
  }

  /** All planned commits, day after day, in order. */
  function AllCommits(plans: seq<DayPlan>): seq<Commit> {
    if |plans| == 0 then [] else AllCommits(plans[..|plans| - 1]) + CommitsOf(plans[|plans| - 1])
  }

  /** The number of days that are not skipped. */
  function ActiveCount(plans: seq<DayPlan>): nat {
    if |plans| == 0 then 0
    else ActiveCount(plans[..|plans| - 1]) + (if plans[|plans| - 1].Active? then 1 else 0)
  }

  /** With a recognised level, the total number of commits lies between the
      per-day minimum and maximum times the number of active days. */
  lemma {:induction false} CommitTotalBounds(plans: seq<DayPlan>, level: string, skipped: seq<int>)
    requires LevelRange(level).Some?
    requires forall i :: 0 <= i < |plans| ==> FollowsRules(plans[i], level, skipped)
    ensures LevelRange(level).value.lo * ActiveCount(plans) <= |AllCommits(plans)|
    ensures |AllCommits(plans)| <= LevelRange(level).value.hi * ActiveCount(plans)
    decreases |plans|
  {
    if |plans| > 0 {
      var init, last := plans[..|plans| - 1], plans[|plans| - 1];
      assert forall i :: 0 <= i < |init| ==> init[i] == plans[i];
      CommitTotalBounds(init, level, skipped);
      assert FollowsRules(last, level, skipped);
      BoundsStep(LevelRange(level).value.lo, LevelRange(level).value.hi, ActiveCount(init),
                 |AllCommits(init)|, |CommitsOf(last)|, last.Active?);
    }
  }

  /** Adding one day to a running total keeps it within the per-day bounds
      times the number of active days. */
  lemma BoundsStep(lo: int, hi: int, a: int, c: int, m: int, active: bool)
    requires lo * a <= c <= hi * a
    requires active ==> lo <= m <= hi
    requires !active ==> m == 0
    ensures var a' := a + if active then 1 else 0;
      lo * a' <= c + m <= hi * a'
  {
    if active {
      assert lo * (a + 1) == lo * a + lo;
      assert hi * (a + 1) == hi * a + hi;
    }
  }

  /** With no weekday skipped every day is active. */
  lemma {:induction false} NoSkipsAllActive(plans: seq<DayPlan>, level: string)
    requires forall i :: 0 <= i < |plans| ==> FollowsRules(plans[i], level, [])
    ensures ActiveCount(plans) == |plans|
    decreases |plans|
  {
    if |plans| > 0 {
      var init := plans[..|plans| - 1];
      assert forall i :: 0 <= i < |init| ==> init[i] == plans[i];
      NoSkipsAllActive(init, level);
    }
  }

  /** Every planned commit is dated on a day whose weekday is not skipped,
      has a valid time of day and carries the fixed message. */
  lemma {:induction false} CommitsAvoidSkippedWeekdays(plans: seq<DayPlan>, level: string, skipped: seq<int>)
    requires forall i :: 0 <= i < |plans| ==> FollowsRules(plans[i], level, skipped)
    ensures forall c :: c in AllCommits(plans) ==>
              Valid(c.date) && Weekday(c.date) !in skipped && ValidTime(c.time) && c.message == CommitMessage
    decreases |plans|
  {
    if |plans| > 0 {
      var init := plans[..|plans| - 1];
      assert forall i :: 0 <= i < |init| ==> init[i] == plans[i];
      CommitsAvoidSkippedWeekdays(init, level, skipped);
      var last := plans[|plans| - 1];
      forall c | c in CommitsOf(last)
        ensures Valid(c.date) && Weekday(c.date) !in skipped && ValidTime(c.time) && c.message == CommitMessage
      {
        var i :| 0 <= i < |last.commits| && last.commits[i] == c;
      }
    }
  }

  /** A level accepted by the level prompt always has a range: the
      `default` branch of the density switch cannot be reached. */
  lemma AcceptedLevelHasRange(input: string)
    requires ParseLevel(input).Some?
    ensures LevelRange(ParseLevel(input).value).Some?
  {
  }

  /** With no weekday skipped, every day of the year is active and the
      year's total lies between the level's daily minimum and maximum times
      the number of days in the year (365 or 366). */
  lemma NoSkipYearTotals(year: int, level: string, rand: nat -> nat)
    requires year >= 1
    requires LevelRange(level).Some?
    ensures ActiveCount(PlanYear(year, level, [], rand)) == DaysInYear(year)
    ensures LevelRange(level).value.lo * DaysInYear(year) <= |AllCommits(PlanYear(year, level, [], rand))|
    ensures |AllCommits(PlanYear(year, level, [], rand))| <= LevelRange(level).value.hi * DaysInYear(year)
  {
    var plan := PlanYear(year, level, [], rand);
    YearDaysCoverage(year);
    NoSkipsAllActive(plan, level);
    CommitTotalBounds(plan, level, []);
  }

  // ---------------------------------------------------------------- execution

  /** What the run does, in order: announce a skipped day, attempt a
      commit (which succeeds or fails), or push. */
  datatype Event =
    | SkipNotice(date: Date, weekday: int)
    | Attempt(commit: Commit, ok: bool)
    | Push(ok: bool)

  /** The commits attempted, in order. */
  function Attempted(log: seq<Event>): seq<Commit> {
    if |log| == 0 then []
    else Attempted(log[..|log| - 1]) + (if log[|log| - 1].Attempt? then [log[|log| - 1].commit] else [])
  }

  /** Whether each attempt succeeded, in order. */
  function Outcomes(log: seq<Event>): seq<bool> {
    if |log| == 0 then []
    else Outcomes(log[..|log| - 1]) + (if log[|log| - 1].Attempt? then [log[|log| - 1].ok] else [])
  }

  /** The number of `true` entries. */
  function CountTrue(bs: seq<bool>): nat {
    if |bs| == 0 then 0 else CountTrue(bs[..|bs| - 1]) + (if bs[|bs| - 1] then 1 else 0)
  }

  /** The days announced as skipped, in order. */
  function Notices(log: seq<Event>): seq<Date> {
    if |log| == 0 then []
    else Notices(log[..|log| - 1]) + (if log[|log| - 1].SkipNotice? then [log[|log| - 1].date] else [])
  }

  /** The skipped days of a plan, in order. */
  function SkippedDates(plans: seq<DayPlan>): seq<Date> {
    if |plans| == 0 then []
    else SkippedDates(plans[..|plans| - 1]) + (if plans[|plans| - 1].Skipped? then [plans[|plans| - 1].date] else [])
  }

  /** Attempt outcomes `bs` are those of attempts number `start`,
      `start + 1`, ... of the run. */
  predicate Follows(bs: seq<bool>, commitOk: nat -> bool, start: nat) {
    forall j :: 0 <= j < |bs| ==> bs[j] == commitOk(start + j)
  }

  predicate NoPush(log: seq<Event>) {
    forall j :: 0 <= j < |log| ==> !log[j].Push?
  }

  lemma AppendEvent(log: seq<Event>, e: Event)
    ensures Attempted(log + [e]) == Attempted(log) + (if e.Attempt? then [e.commit] else [])
    ensures Outcomes(log + [e]) == Outcomes(log) + (if e.Attempt? then [e.ok] else [])
    ensures Notices(log + [e]) == Notices(log) + (if e.SkipNotice? then [e.date] else [])
  {
    assert (log + [e])[..|log|] == log;
  }

  /** The summaries of a log split at any point are the summaries of the
      two parts, joined. */
  lemma {:induction false} ConcatLogs(log: seq<Event>, more: seq<Event>)
    ensures Attempted(log + more) == Attempted(log) + Attempted(more)
    ensures Outcomes(log + more) == Outcomes(log) + Outcomes(more)
    ensures Notices(log + more) == Notices(log) + Notices(more)
    decreases |more|
  {
    if |more| == 0 {
      assert log + more == log;
    } else {
      var init, e := more[..|more| - 1], more[|more| - 1];
      assert log + more == (log + init) + [e];
      assert more == init + [e];
      ConcatLogs(log, init);
      AppendEvent(log + init, e);
      AppendEvent(init, e);
    }
  }

  lemma {:induction false} CountTrueConcat(a: seq<bool>, b: seq<bool>)
    ensures CountTrue(a + b) == CountTrue(a) + CountTrue(b)
    decreases |b|
  {
    if |b| == 0 {
      assert a + b == a;
    } else {
      var init := b[..|b| - 1];
      assert (a + b)[..|a + b| - 1] == a + init;
      CountTrueConcat(a, init);
    }
  }

  lemma {:induction false} CountTrueBound(bs: seq<bool>)
    ensures CountTrue(bs) <= |bs|
    decreases |bs|
  {
    if |bs| > 0 {
      CountTrueBound(bs[..|bs| - 1]);
    }
  }

  lemma AppendPlan(plans: seq<DayPlan>, k: nat)
    requires k < |plans|
    ensures AllCommits(plans[..k + 1]) == AllCommits(plans[..k]) + CommitsOf(plans[k])
    ensures SkippedDates(plans[..k + 1]) == SkippedDates(plans[..k]) + (if plans[k].Skipped? then [plans[k].date] else [])
  {
    assert plans[..k + 1][..k] == plans[..k];
  }

  lemma AppendAttemptOutcome(log: seq<Event>, c: Commit, ok: bool)
    ensures Outcomes(log + [Attempt(c, ok)]) == Outcomes(log) + [ok]
  {
    assert (log + [Attempt(c, ok)])[..|log|] == log;
  }

  /** The next outcome drawn in order keeps the outcomes in order. */
  lemma FollowsStep(bs: seq<bool>, commitOk: nat -> bool, start: nat)
    requires Follows(bs, commitOk, start)
    ensures Follows(bs + [commitOk(start + |bs|)], commitOk, start)
  {
    var cs := bs + [commitOk(start + |bs|)];
    forall j | 0 <= j < |cs|
      ensures cs[j] == commitOk(start + j)
    {
      if j < |bs| {
        assert cs[j] == bs[j];
      }
    }
  }

  lemma AppendOutcome(bs: seq<bool>, b: bool)
    ensures CountTrue(bs + [b]) == CountTrue(bs) + (if b then 1 else 0)
  {
    assert (bs + [b])[..|bs|] == bs;
  }

  /** What the inner loop has done after the first `i` commits. */
  predicate InnerDone(events: seq<Event>, commits: seq<Commit>, i: int, commitOk: nat -> bool, start: nat, succeeded: nat) {
    && 0 <= i <= |commits|
    && Attempted(events) == commits[..i]
    && |Outcomes(events)| == i
    && Follows(Outcomes(events), commitOk, start)
    && succeeded == CountTrue(Outcomes(events))
    && Notices(events) == []
    && NoPush(events)
  }

  lemma InnerStep(events: seq<Event>, commits: seq<Commit>, i: int, commitOk: nat -> bool, start: nat, succeeded: nat)
    requires InnerDone(events, commits, i, commitOk, start, succeeded) && i < |commits|
    ensures InnerDone(events + [Attempt(commits[i], commitOk(start + i))], commits, i + 1, commitOk, start,
                      succeeded + if commitOk(start + i) then 1 else 0)
  {
    var ok := commitOk(start + i);
    StepAttempted(events, commits, i, ok);
    AppendAttemptOutcome(events, commits[i], ok);
    FollowsStep(Outcomes(events), commitOk, start);
    AppendOutcome(Outcomes(events), ok);
    AppendNoPush(events, Attempt(commits[i], ok));
  }

  /** Attempting the next commit extends the attempted prefix by it. */
  lemma StepAttempted(events: seq<Event>, commits: seq<Commit>, i: int, ok: bool)
    requires 0 <= i < |commits| && Attempted(events) == commits[..i]
    ensures Attempted(events + [Attempt(commits[i], ok)]) == commits[..i + 1]
    ensures Notices(events + [Attempt(commits[i], ok)]) == Notices(events)
  {
    AppendEvent(events, Attempt(commits[i], ok));
    assert commits[..i + 1] == commits[..i] + [commits[i]];
  }

  lemma AppendNoPush(log: seq<Event>, e: Event)
    requires NoPush(log) && !e.Push?
    ensures NoPush(log + [e])
  {
  }

  /** The inner loop over one day's commits. The j-th of them is attempt
      number `start + j` of the run and succeeds as `commitOk` says; a
      failure is only reported, and the loop goes on to the next commit. */
  method AttemptCommits(commits: seq<Commit>, commitOk: nat -> bool, start: nat)
    returns (events: seq<Event>, succeeded: nat)
    ensures Attempted(events) == commits
    ensures |Outcomes(events)| == |commits|
    ensures Follows(Outcomes(events), commitOk, start)
    ensures succeeded == CountTrue(Outcomes(events)) <= |commits|
    ensures Notices(events) == [] && NoPush(events)
  {
    events, succeeded := [], 0;
    var i := 0;
    while i < |commits|
      invariant InnerDone(events, commits, i, commitOk, start, succeeded)
      decreases |commits| - i
    {
      var ok := commitOk(start + i);
      InnerStep(events, commits, i, commitOk, start, succeeded);
      events := events + [Attempt(commits[i], ok)];
      if ok {
        succeeded := succeeded + 1;
      }
      i := i + 1;
    }
    assert commits[..i] == commits;
    CountTrueBound(Outcomes(events));
  }

  /** `events` are what the run does for the day `p`, whose first attempt
      (if any) is attempt number `start`, and `s` of them succeed. */
  predicate DayDone(p: DayPlan, events: seq<Event>, s: nat, commitOk: nat -> bool, start: nat) {
    && Attempted(events) == CommitsOf(p)
    && |Outcomes(events)| == |CommitsOf(p)|
    && Follows(Outcomes(events), commitOk, start)
    && s == CountTrue(Outcomes(events)) <= |CommitsOf(p)|
    && Notices(events) == (if p.Skipped? then [p.date] else [])
    && NoPush(events)
  }

  /** What the outer loop has done after the first `k` days. */
  predicate OuterDone(log: seq<Event>, plans: seq<DayPlan>, k: int, commitOk: nat -> bool, succeeded: nat, failed: nat) {
    && 0 <= k <= |plans|
    && Attempted(log) == AllCommits(plans[..k])
    && |Outcomes(log)| == succeeded + failed
    && Follows(Outcomes(log), commitOk, 0)
    && succeeded == CountTrue(Outcomes(log))
    && Notices(log) == SkippedDates(plans[..k])
    && NoPush(log)
  }

  lemma SkipDayDone(p: DayPlan, commitOk: nat -> bool, start: nat)
    requires p.Skipped?
    ensures DayDone(p, [SkipNotice(p.date, p.weekday)], 0, commitOk, start)
  {
    AppendEvent([], SkipNotice(p.date, p.weekday));
    assert [] + [SkipNotice(p.date, p.weekday)] == [SkipNotice(p.date, p.weekday)];
  }

  lemma OuterStep(log: seq<Event>, plans: seq<DayPlan>, k: int, commitOk: nat -> bool, succeeded: nat, failed: nat,
                  events: seq<Event>, s: nat)
    requires OuterDone(log, plans, k, commitOk, succeeded, failed) && k < |plans|
    requires DayDone(plans[k], events, s, commitOk, succeeded + failed)
    ensures OuterDone(log + events, plans, k + 1, commitOk, succeeded + s, failed + (|CommitsOf(plans[k])| - s))
  {
    var p := plans[k];
    assert Attempted(log + events) == AllCommits(plans[..k + 1]) by {
      AppendPlan(plans, k);
      ConcatLogs(log, events);
    }
    assert |Outcomes(log + events)| == succeeded + s + failed + (|CommitsOf(p)| - s) by {
      ConcatLogs(log, events);
    }
    assert Follows(Outcomes(log + events), commitOk, 0) by {
      ConcatLogs(log, events);
      ConcatOutcomes(Outcomes(log), Outcomes(events), commitOk, 0);
    }
    assert succeeded + s == CountTrue(Outcomes(log + events)) by {
      ConcatLogs(log, events);
      CountTrueConcat(Outcomes(log), Outcomes(events));
    }
    assert Notices(log + events) == SkippedDates(plans[..k + 1]) by {
      AppendPlan(plans, k);
      ConcatLogs(log, events);
    }
    ConcatNoPush(log, events);
  }

  /** Outcomes that follow `commitOk` from 0, then from where they stop,
      follow it from 0 all along. */
  lemma ConcatOutcomes(a: seq<bool>, b: seq<bool>, commitOk: nat -> bool, start: nat)
    requires Follows(a, commitOk, start) && Follows(b, commitOk, start + |a|)
    ensures Follows(a + b, commitOk, start)
  {
    forall j | 0 <= j < |a + b|
      ensures (a + b)[j] == commitOk(start + j)
    {
      if j >= |a| {
        assert (a + b)[j] == b[j - |a|];
      }
    }
  }

  lemma ConcatNoPush(log: seq<Event>, more: seq<Event>)
    requires NoPush(log) && NoPush(more)
    ensures NoPush(log + more)
  {
    forall j | 0 <= j < |log + more|
      ensures !(log + more)[j].Push?
    {
      if j >= |log| {
        assert (log + more)[j] == more[j - |log|];
      }
    }
  }

  /** The run over a plan: for each day in order, announce it when skipped,
      otherwise attempt its commits one after another, the j-th attempt of
      the run succeeding as `commitOk(j)` says; a failed attempt is
      reported and the run goes on. Last comes the push, whose outcome is
      `pushOk`. */
  method Execute(plans: seq<DayPlan>, commitOk: nat -> bool, pushOk: bool)
    returns (log: seq<Event>, succeeded: nat, failed: nat)
    ensures Attempted(log) == AllCommits(plans)
    ensures |Outcomes(log)| == |AllCommits(plans)|
    ensures forall j :: 0 <= j < |Outcomes(log)| ==> Outcomes(log)[j] == commitOk(j)
    ensures succeeded == CountTrue(Outcomes(log))
    ensures succeeded + failed == |AllCommits(plans)|
    ensures Notices(log) == SkippedDates(plans)
    ensures |log| > 0 && log[|log| - 1] == Push(pushOk) && NoPush(log[..|log| - 1])
  {
    log, succeeded, failed := [], 0, 0;
    var k := 0;
    while k < |plans|
      invariant OuterDone(log, plans, k, commitOk, succeeded, failed)
      decreases |plans| - k
    {
      var events: seq<Event>;
      var s: nat;
      if plans[k].Skipped? {
        events, s := [SkipNotice(plans[k].date, plans[k].weekday)], 0;
        SkipDayDone(plans[k], commitOk, succeeded + failed);
      } else {
        events, s := AttemptCommits(plans[k].commits, commitOk, succeeded + failed);
        assert DayDone(plans[k], events, s, commitOk, succeeded + failed);
      }
      OuterStep(log, plans, k, commitOk, succeeded, failed, events, s);
      log := log + events;
      succeeded, failed := succeeded + s, failed + (|CommitsOf(plans[k])| - s);
      k := k + 1;
    }
    assert plans[..k] == plans;
    OutcomesMatchAttempts(log);
    var before := log;
    AppendPush(before, pushOk);
    log := before + [Push(pushOk)];
  }

  lemma AppendPush(log: seq<Event>, pushOk: bool)
    ensures Attempted(log + [Push(pushOk)]) == Attempted(log)
    ensures Outcomes(log + [Push(pushOk)]) == Outcomes(log)
    ensures Notices(log + [Push(pushOk)]) == Notices(log)
    ensures (log + [Push(pushOk)])[..|log|] == log
  {
    AppendEvent(log, Push(pushOk));
  }

  lemma {:induction false} OutcomesMatchAttempts(log: seq<Event>)
    ensures |Outcomes(log)| == |Attempted(log)|
    decreases |log|
  {
    if |log| > 0 {
      OutcomesMatchAttempts(log[..|log| - 1]);
    }
  }

  // ---------------------------------------------------------------- the run

  /** The whole script: the three prompts, then the plan for the chosen
      year, level and skipped weekdays, then the attempts and the push.
      `None` when the given answers run out before a year or a level is
      accepted. The current year, the random draws and the outcome of each
      git operation are parameters. */
  method Run(yearAnswers: seq<string>, levelAnswers: seq<string>, skipAnswer: string, currentYear: int,
             rand: nat -> nat, commitOk: nat -> bool, pushOk: bool)
    returns (r: Option<seq<Event>>)
    ensures r.None? <==> CollectParameters(yearAnswers, levelAnswers, skipAnswer, currentYear).None?
    ensures r.Some? ==>
              var p := CollectParameters(yearAnswers, levelAnswers, skipAnswer, currentYear).value;
              && Attempted(r.value) == AllCommits(PlanYear(p.year, p.level, p.skipped, rand))
              && Notices(r.value) == SkippedDates(PlanYear(p.year, p.level, p.skipped, rand))
              && |r.value| > 0 && r.value[|r.value| - 1] == Push(pushOk)
    ensures r.Some? ==>
              var p := CollectParameters(yearAnswers, levelAnswers, skipAnswer, currentYear).value;
              forall c :: c in Attempted(r.value) ==>
                Valid(c.date) && Weekday(c.date) !in p.skipped && ValidTime(c.time) && c.message == CommitMessage
  {
    var params := CollectParameters(yearAnswers, levelAnswers, skipAnswer, currentYear);
    if params.None? {
      return None;
    }
    var p := params.value;
    var plan := PlanYear(p.year, p.level, p.skipped, rand);
    CommitsAvoidSkippedWeekdays(plan, p.level, p.skipped);
    var log, succeeded, failed := Execute(plan, commitOk, pushOk);
    return Some(log);
  }
}

=== FILE: jstext.dfy ===
/** The JavaScript string primitives the input validation relies on:
    `String.prototype.trim`, `split(',')`, `toLowerCase` and `parseInt(s, 10)`.
    Strings are sequences of Unicode scalar values. */
module JsText {
  import opened Base

  /** ECMAScript WhiteSpace and LineTerminator code points: the set that both
      `trim` removes and `parseInt` skips before the number. */
  predicate IsWhitespace(c: char) {
    c == '\t' || c == '\n' || c == '\U{B}' || c == '\U{C}' || c == '\r' || c == ' '
    || c == '\U{A0}' || c == '\U{1680}' || ('\U{2000}' <= c <= '\U{200A}')
    || c == '\U{2028}' || c == '\U{2029}' || c == '\U{202F}' || c == '\U{205F}'
    || c == '\U{3000}' || c == '\U{FEFF}'
  }

  predicate AllWhitespace(s: string) {
    forall i :: 0 <= i < |s| ==> IsWhitespace(s[i])
  }

  // ---------------------------------------------------------------- trim

  lemma WhitespaceCons(c: char, w: string)
    requires IsWhitespace(c) && AllWhitespace(w)
    ensures AllWhitespace([c] + w)
  {
    forall i | 0 <= i < |[c] + w|
      ensures IsWhitespace(([c] + w)[i])
    {
      if i > 0 {
        assert ([c] + w)[i] == w[i - 1];
      }
    }
  }

  /** `s` without its leading whitespace. */
  function TrimStart(s: string): (r: string)
    ensures |r| <= |s| && r == s[|s| - |r|..]
    ensures AllWhitespace(s[..|s| - |r|])
    ensures r == [] || !IsWhitespace(r[0])
  {
    if |s| > 0 && IsWhitespace(s[0]) then
      var r := TrimStart(s[1..]);
      assert s[..|s| - |r|] == [s[0]] + s[1..][..|s| - 1 - |r|];
      assert s[|s| - |r|..] == s[1..][|s| - 1 - |r|..];
      WhitespaceCons(s[0], s[1..][..|s| - 1 - |r|]);
      r
    else s
  }

  /** `s` without its trailing whitespace. */
  function TrimEnd(s: string): (r: string)
    ensures |r| <= |s| && r == s[..|r|]
    ensures AllWhitespace(s[|r|..])
    ensures r == [] || !IsWhitespace(r[|r| - 1])
  {
    if |s| > 0 && IsWhitespace(s[|s| - 1]) then
      var r := TrimEnd(s[..|s| - 1]);
      assert s[|r|..] == s[..|s| - 1][|r|..] + [s[|s| - 1]];
      r
    else s
  }

  /** `String.prototype.trim`. */
  function Trim(s: string): (r: string)
    ensures |r| <= |s|
    ensures r == [] || (!IsWhitespace(r[0]) && !IsWhitespace(r[|r| - 1]))
  {
    var t := TrimStart(s);
    var r := TrimEnd(t);
    assert r == t[..|r|];
    r
  }

  /** How many blanks `trim` removes from the front of `s`. */
  function LeadingBlanks(s: string): (k: nat)
    ensures k <= |s| && TrimStart(s) == s[k..]
  {
    |s| - |TrimStart(s)|
  }

  /** Trim keeps one contiguous stretch of `s` ... */
  lemma TrimIsInfix(s: string)
    ensures LeadingBlanks(s) + |Trim(s)| <= |s|
    ensures Trim(s) == s[LeadingBlanks(s)..LeadingBlanks(s) + |Trim(s)|]
  {
    var k := LeadingBlanks(s);
    var u := Trim(s);
    assert |u| <= |s| - k && u == s[k..][..|u|] by {
      TrimStartSplits(s);
    }
    SliceOfSuffix(s, k, |u|);
  }

  lemma SliceOfSuffix(s: string, k: nat, n: nat)
    requires k + n <= |s|
    ensures s[k..][..n] == s[k..k + n]
  {
  }

  /** ... everything it cuts away on either side is whitespace ... */
  lemma TrimRemovesOnlyWhitespace(s: string)
    ensures LeadingBlanks(s) + |Trim(s)| <= |s|
    ensures AllWhitespace(s[..LeadingBlanks(s)])
    ensures AllWhitespace(s[LeadingBlanks(s) + |Trim(s)|..])
  {
    var k := LeadingBlanks(s);
    var u := Trim(s);
    assert |u| <= |s| - k && AllWhitespace(s[k..][|u|..]) by {
      TrimStartSplits(s);
    }
    assert s[k + |u|..] == s[k..][|u|..];
  }

  lemma {:induction false} TrimStartAfterWhitespace(ws: string, t: string)
    requires AllWhitespace(ws)
    requires t == [] || !IsWhitespace(t[0])
    ensures TrimStart(ws + t) == t
    decreases |ws|
  {
    if |ws| > 0 {
      assert (ws + t)[1..] == ws[1..] + t;
      TrimStartAfterWhitespace(ws[1..], t);
    } else {
      assert ws + t == t;
    }
  }

  /** Trimming twice is trimming once. */
  lemma TrimIdempotent(s: string)
    ensures Trim(Trim(s)) == Trim(s)
  {
    var r := Trim(s);
    TrimStartAfterWhitespace([], r);
    assert [] + r == r;
  }

  // ---------------------------------------------------------------- split

  /** `s.split(sep)` for a one-character separator: the pieces between
      separators, in order; the empty string gives one empty piece. */
  function Split(s: string, sep: char): (parts: seq<string>)
    ensures |parts| >= 1
    ensures forall k :: 0 <= k < |parts| ==> sep !in parts[k]
  {
    if |s| == 0 then [""]
    else
      var rest := Split(s[1..], sep);
      if s[0] == sep then [""] + rest
      else [[s[0]] + rest[0]] + rest[1..]
  }

  /** `parts.join(sep)`, the inverse of Split. */
  function Join(parts: seq<string>, sep: char): string
    requires |parts| >= 1
  {
    if |parts| == 1 then parts[0] else parts[0] + [sep] + Join(parts[1..], sep)
  }

  lemma JoinConsChar(c: char, p: string, ps: seq<string>, sep: char)
    ensures Join([[c] + p] + ps, sep) == [c] + Join([p] + ps, sep)
  {
    if |ps| > 0 {
      assert ([[c] + p] + ps)[1..] == ps;
      assert ([p] + ps)[1..] == ps;
    }
  }

  /** Joining the pieces back with the separator gives the original string. */
  lemma {:induction false} JoinSplit(s: string, sep: char)
    ensures Join(Split(s, sep), sep) == s
    decreases |s|
  {
    if |s| > 0 {
      var rest := Split(s[1..], sep);
      JoinSplit(s[1..], sep);
      if s[0] == sep {
        assert ([""] + rest)[1..] == rest;
      } else {
        assert rest == [rest[0]] + rest[1..];
        JoinConsChar(s[0], rest[0], rest[1..], sep);
      }
    }
  }

  /** Splitting at a separator splits the two sides independently. */
  lemma {:induction false} SplitConcat(a: string, b: string, sep: char)
    ensures Split(a + [sep] + b, sep) == Split(a, sep) + Split(b, sep)
    decreases |a|
  {
    var s := a + [sep] + b;
    if |a| == 0 {
      assert s[1..] == b;
    } else {
      assert s[1..] == a[1..] + [sep] + b;
      SplitConcat(a[1..], b, sep);
    }
  }

  lemma {:induction false} SplitWithoutSeparator(p: string, sep: char)
    requires sep !in p
    ensures Split(p, sep) == [p]
    decreases |p|
  {
    if |p| > 0 {
      SplitWithoutSeparator(p[1..], sep);
      assert [p[0]] + p[1..] == p;
    }
  }

  /** Pieces free of the separator are recovered by splitting their join. */
  lemma {:induction false} SplitJoin(parts: seq<string>, sep: char)
    requires |parts| >= 1
    requires forall k :: 0 <= k < |parts| ==> sep !in parts[k]
    ensures Split(Join(parts, sep), sep) == parts
    decreases |parts|
  {
    SplitWithoutSeparator(parts[0], sep);
    if |parts| > 1 {
      SplitJoin(parts[1..], sep);
      SplitConcat(parts[0], Join(parts[1..], sep), sep);
      assert [parts[0]] + parts[1..] == parts;
    }
  }

  // ---------------------------------------------------------------- toLowerCase

  function LowerChar(c: char): char {
    if 'A' <= c <= 'Z' then (c as int + 32) as char else c
  }

  /** `toLowerCase`, restricted to the ASCII letters (see README). */
  function ToLower(s: string): (r: string)
    ensures |r| == |s|
    ensures forall i :: 0 <= i < |s| ==> !('A' <= r[i] <= 'Z')
    ensures forall i :: 0 <= i < |s| && !('A' <= s[i] <= 'Z') ==> r[i] == s[i]
    ensures forall i :: 0 <= i < |s| && 'A' <= s[i] <= 'Z' ==> r[i] as int == s[i] as int + 32
  {
    seq(|s|, i requires 0 <= i < |s| => LowerChar(s[i]))
  }

  // ---------------------------------------------------------------- parseInt

  predicate IsDigit(c: char) {
    '0' <= c <= '9'
  }

  predicate AllDigits(s: string) {
    forall i :: 0 <= i < |s| ==> IsDigit(s[i])
  }

  function DigitValue(c: char): nat
    requires IsDigit(c)
  {
    c as int - '0' as int
  }

  function DigitChar(v: nat): (c: char)
    requires v <= 9
    ensures IsDigit(c) && DigitValue(c) == v
  {
    ('0' as int + v) as char
  }

  /** The longest prefix of `s` made of decimal digits. */
  function LeadingDigits(s: string): (ds: string)
    ensures |ds| <= |s| && ds == s[..|ds|]
    ensures AllDigits(ds)
    ensures |ds| == |s| || !IsDigit(s[|ds|])
  {
    if |s| > 0 && IsDigit(s[0]) then [s[0]] + LeadingDigits(s[1..]) else []
  }

  /** The value of a decimal numeral, most significant digit first. */
  function DigitsValue(ds: string): nat
    requires AllDigits(ds)
  {
    if |ds| == 0 then 0 else 10 * DigitsValue(ds[..|ds| - 1]) + DigitValue(ds[|ds| - 1])
  }

  /** The sign-stripped part of an already left-trimmed numeral. */
  function Unsigned(t: string): string {
    if |t| > 0 && (t[0] == '-' || t[0] == '+') then t[1..] else t
  }

  /** `parseInt(s, 10)`: skip leading whitespace, read an optional sign and
      then the longest run of decimal digits; no digit at all gives NaN,
      which is `None` here. Trailing characters are ignored. */
  function ParseInt(s: string): (r: Option<int>)
    ensures r.Some? ==> exists k :: 0 <= k < |s| && IsDigit(s[k])
  {
    var t := TrimStart(s);
    var r := ParseNumeral(t);
    if r.Some? then
      var ds := LeadingDigits(Unsigned(t));
      assert |ds| > 0 && IsDigit(Unsigned(t)[0]);
      var k := |s| - |t| + (if t[0] == '-' || t[0] == '+' then 1 else 0);
      assert s[k] == Unsigned(t)[0];
      r
    else r
  }

  /** The number at the very start of `t`, after an optional sign. */
  function ParseNumeral(t: string): Option<int> {
    var ds := LeadingDigits(Unsigned(t));
    if |ds| == 0 then None
    else if t[0] == '-' then Some(-(DigitsValue(ds) as int))
    else Some(DigitsValue(ds))
  }

  /** Decimal rendering of a natural number, without leading zeros. */
  function ShowNat(n: nat): (s: string)
    ensures |s| >= 1 && AllDigits(s)
  {
    if n < 10 then [DigitChar(n)] else ShowNat(n / 10) + [DigitChar(n % 10)]
  }

  /** Decimal rendering of an integer, `-` first when negative. */
  function ShowInt(i: int): (s: string)
    ensures |s| >= 1 && (s[0] == '-' || IsDigit(s[0]))
  {
    if i < 0 then "-" + ShowNat(-i) else ShowNat(i)
  }

  lemma {:induction false} DigitsValueShowNat(n: nat)
    ensures DigitsValue(ShowNat(n)) == n
  {
    if n >= 10 {
      var s := ShowNat(n);
      assert s[..|s| - 1] == ShowNat(n / 10);
      DigitsValueShowNat(n / 10);
    }
  }

  /** A digit run followed by a non-digit is read up to the non-digit. */
  lemma {:induction false} LeadingDigitsStop(ds: string, rest: string)
    requires AllDigits(ds)
    requires rest == [] || !IsDigit(rest[0])
    ensures LeadingDigits(ds + rest) == ds
    decreases |ds|
  {
    if |ds| > 0 {
      assert (ds + rest)[1..] == ds[1..] + rest;
      LeadingDigitsStop(ds[1..], rest);
    } else {
      assert ds + rest == rest;
    }
  }

  /** Text after the digit run does not change the digits read. */
  lemma {:induction false} LeadingDigitsIgnoresTail(u: string, w: string)
    requires w == [] || !IsDigit(w[0])
    ensures LeadingDigits(u + w) == LeadingDigits(u)
    decreases |u|
  {
    if |u| > 0 {
      assert (u + w)[1..] == u[1..] + w;
      LeadingDigitsIgnoresTail(u[1..], w);
    } else {
      assert u + w == w;
    }
  }

  lemma ParseNumeralShowInt(i: int, rest: string)
    requires rest == [] || !IsDigit(rest[0])
    ensures ParseNumeral(ShowInt(i) + rest) == Some(i)
  {
    if i >= 0 {
      ParseNumeralShowNat(i, rest);
    } else {
      assert ShowInt(i) + rest == "-" + ShowNat(-i) + rest;
      ParseNumeralShowNeg(-i, rest);
    }
  }

  lemma ParseNumeralShowNeg(n: nat, rest: string)
    requires rest == [] || !IsDigit(rest[0])
    ensures ParseNumeral("-" + ShowNat(n) + rest) == Some(-(n as int))
  {
    ParseNumeralDigits("-", ShowNat(n), rest);
    DigitsValueShowNat(n);
  }

  /** Once the digit run at the start of `u` is known, `u` and `+u` read as
      its value and `-u` as its negation. */
  lemma ParseNumeralOfRun(u: string, ds: string)
    requires |ds| > 0 && AllDigits(ds) && LeadingDigits(u) == ds
    ensures ParseNumeral(u) == Some(DigitsValue(ds) as int)
    ensures ParseNumeral("+" + u) == Some(DigitsValue(ds) as int)
    ensures ParseNumeral("-" + u) == Some(-(DigitsValue(ds) as int))
  {
    ParseNumeralMinus(u);
    assert ("+" + u)[0] == '+' && ("+" + u)[1..] == u;
    assert u[0] == ds[0];
  }

  /** A leading minus negates the number read after it. */
  lemma ParseNumeralMinus(u: string)
    ensures var ds := LeadingDigits(u);
      ParseNumeral("-" + u) == if |ds| == 0 then None else Some(-(DigitsValue(ds) as int))
  {
    assert ("-" + u)[0] == '-' && ("-" + u)[1..] == u;
  }

  lemma ParseNumeralShowNat(n: nat, rest: string)
    requires rest == [] || !IsDigit(rest[0])
    ensures ParseNumeral(ShowNat(n) + rest) == Some(n)
  {
    var t := ShowNat(n) + rest;
    assert t[0] == ShowNat(n)[0];
    assert Unsigned(t) == t;
    LeadingDigitsStop(ShowNat(n), rest);
    DigitsValueShowNat(n);
  }

  /** A leading zero does not change the value of a digit run, so padded
      numerals such as `07` read as the unpadded ones. */
  lemma {:induction false} DigitsValueLeadingZero(ds: string)
    requires AllDigits(ds)
    ensures AllDigits("0" + ds)
    ensures DigitsValue("0" + ds) == DigitsValue(ds)
    decreases |ds|
  {
    var zs := "0" + ds;
    if |ds| == 0 {
      assert zs[..0] == [];
    } else {
      assert zs[..|zs| - 1] == "0" + ds[..|ds| - 1];
      assert zs[|zs| - 1] == ds[|ds| - 1];
      DigitsValueLeadingZero(ds[..|ds| - 1]);
    }
  }

  /** parseInt of any numeral: after the blanks, an optional `+` or `-` and
      a run of digits (leading zeros allowed) up to the first non-digit give
      the value of the digits, negated after `-`. */
  lemma ParseIntDigits(ws: string, sign: string, ds: string, rest: string)
    requires AllWhitespace(ws)
    requires sign == "" || sign == "+" || sign == "-"
    requires |ds| > 0 && AllDigits(ds)
    requires rest == [] || !IsDigit(rest[0])
    ensures ParseInt(ws + sign + ds + rest) == Some(if sign == "-" then -(DigitsValue(ds) as int) else DigitsValue(ds))
  {
    var t := sign + ds + rest;
    AssocConcat(ws, sign, ds, rest);
    assert !IsWhitespace(t[0]) by {
      assert t[0] == if sign == "" then ds[0] else sign[0];
    }
    TrimStartAfterWhitespace(ws, t);
    ParseNumeralDigits(sign, ds, rest);
  }

  /** The numeral part of ParseIntDigits, once the blanks are gone. */
  lemma ParseNumeralDigits(sign: string, ds: string, rest: string)
    requires sign == "" || sign == "+" || sign == "-"
    requires |ds| > 0 && AllDigits(ds)
    requires rest == [] || !IsDigit(rest[0])
    ensures ParseNumeral(sign + ds + rest) == Some(if sign == "-" then -(DigitsValue(ds) as int) else DigitsValue(ds))
  {
    var u := ds + rest;
    assert sign + ds + rest == sign + u;
    LeadingDigitsStop(ds, rest);
    ParseNumeralOfRun(u, ds);
    if sign == "-" {
      assert sign + u == "-" + u;
    } else if sign == "+" {
      assert sign + u == "+" + u;
    } else {
      assert sign + u == u;
    }
  }

  /** parseInt reads back what ShowInt writes, whatever whitespace comes
      before it and whatever non-digit text follows it. */
  lemma ParseIntShowInt(ws: string, i: int, rest: string)
    requires AllWhitespace(ws)
    requires rest == [] || !IsDigit(rest[0])
    ensures ParseInt(ws + ShowInt(i) + rest) == Some(i)
  {
    var t := ShowInt(i) + rest;
    assert ws + ShowInt(i) + rest == ws + t;
    assert !IsWhitespace(t[0]);
    TrimStartAfterWhitespace(ws, t);
    ParseNumeralShowInt(i, rest);
  }

  /** Without a digit after the blanks and the optional sign, parseInt is
      NaN: blank input, a lone sign, or any other first character. */
  lemma ParseIntNaN(ws: string, rest: string)
    requires AllWhitespace(ws)
    requires rest == [] || !IsWhitespace(rest[0])
    requires rest == [] || (!IsDigit(rest[0]) && (rest[0] in "+-" ==> |rest| == 1 || !IsDigit(rest[1])))
    ensures ParseInt(ws + rest) == None
  {
    TrimStartAfterWhitespace(ws, rest);
  }

  /** Whitespace after the numeral does not change the number read; blanks
      alone read as NaN, like the empty string. */
  lemma ParseNumeralIgnoresTail(u: string, w: string)
    requires AllWhitespace(w)
    ensures ParseNumeral(u + w) == ParseNumeral(u)
  {
    assert w == [] || !IsDigit(w[0]);
    if |u| > 0 {
      assert Unsigned(u + w) == Unsigned(u) + w;
      LeadingDigitsIgnoresTail(Unsigned(u), w);
    } else {
      assert u + w == w;
      assert w == [] || (w[0] != '-' && w[0] != '+');
    }
  }

  /** The `trim()` applied before `parseInt` in the script changes nothing:
      parseInt already skips leading whitespace and stops at trailing text. */
  lemma ParseIntIgnoresTrim(s: string)
    ensures ParseInt(Trim(s)) == ParseInt(s)
  {
    var u := Trim(s);
    var w := TrimStart(s)[|u|..];
    TrimStartSplits(s);
    assert ParseInt(u) == ParseNumeral(u) by {
      TrimStartAfterWhitespace([], u);
      assert [] + u == u;
    }
    ParseNumeralIgnoresTail(u, w);
  }

  /** The left-trimmed text is the trimmed text followed by blanks, and
      those blanks are empty when nothing is left after trimming. */
  lemma TrimStartSplits(s: string)
    ensures |Trim(s)| <= |TrimStart(s)|
    ensures TrimStart(s) == Trim(s) + TrimStart(s)[|Trim(s)|..]
    ensures AllWhitespace(TrimStart(s)[|Trim(s)|..])
    ensures Trim(s) != [] || TrimStart(s) == []
  {
    var t := TrimStart(s);
    var u := TrimEnd(t);
    assert t == u + t[|u|..];
  }
}

=== FILE: sampler.dfy ===
/** The density sampler: `getRandomInt` and the `switch` that maps a density
    level to the range each day's commit count is drawn from.

    Randomness is a parameter. A draw is an abstract natural number; for a
    range of `size` values its offset is `draw % size`, standing in for
    `Math.floor(Math.random() * size)`. The random source is a function
    `rand: nat -> nat` giving the draw of the i-th call. */
module Sampler {
  import opened Base

  /** The offset a draw selects in a range of `size` values. */
  function Offset(draw: nat, size: nat): (k: nat)
    requires size > 0
    ensures k < size
    ensures draw < size ==> k == draw
  {
    draw % size
  }

  /** `getRandomInt(min, max)` for integer bounds (where `Math.ceil` and
      `Math.floor` change nothing), given the offset `k` of the draw. */
  function RandomInt(min: int, max: int, k: nat): (r: int)
    requires min <= max && k <= max - min
    ensures min <= r <= max
  {
    min + k
  }

  /** The offset that makes `getRandomInt(min, max)` return `v`. */
  function OffsetOf(min: int, max: int, v: int): (k: nat)
    requires min <= v <= max
    ensures k <= max - min
  {
    v - min
  }

  /** Offsets and results are in one-to-one correspondence: OffsetOf undoes
      RandomInt and RandomInt undoes OffsetOf, so every value of `[min, max]`
      comes from exactly one offset and a uniform offset gives a uniform
      result. */
  lemma RandomIntBijective(min: int, max: int)
    requires min <= max
    ensures forall k: nat :: k <= max - min ==> OffsetOf(min, max, RandomInt(min, max, k)) == k
    ensures forall v :: min <= v <= max ==> RandomInt(min, max, OffsetOf(min, max, v)) == v
  {
  }

  /** One call of `getRandomInt(min, max)` consuming the draw `draw`. */
  function Draw(min: int, max: int, draw: nat): (r: int)
    requires min <= max
    ensures min <= r <= max
  {
    RandomInt(min, max, Offset(draw, max - min + 1))
  }

  datatype Range = Range(lo: int, hi: int)

  /** The density `switch`: the inclusive range a level's daily commit count
      is drawn from, or `None` for the `default` branch. */
  function LevelRange(level: string): (r: Option<Range>)
    ensures r.None? <==> level !in ["low", "medium", "high"]
    ensures r.Some? ==> 0 <= r.value.lo <= r.value.hi
  {
    if level == "low" then Some(Range(0, 2))
    else if level == "medium" then Some(Range(1, 5))
    else if level == "high" then Some(Range(3, 10))
    else None
  }

  /** The commit count of one day and the index of the next unused draw.
      A recognised level uses one draw; the `default` branch uses none and
      always yields one commit. */
  function CommitCount(level: string, rand: nat -> nat, next: nat): (r: (nat, nat))
    ensures level == "low" ==> 0 <= r.0 <= 2
    ensures level == "medium" ==> 1 <= r.0 <= 5
    ensures level == "high" ==> 3 <= r.0 <= 10
    ensures level in ["low", "medium", "high"] ==> r.1 == next + 1
    ensures level !in ["low", "medium", "high"] ==> r == (1, next)
    ensures LevelRange(level).Some? ==> LevelRange(level).value.lo <= r.0 <= LevelRange(level).value.hi
    ensures LevelRange(level).Some? ==> r.1 == next + 1
    ensures LevelRange(level).None? ==> r == (1, next)
  {
    match LevelRange(level)
    case Some(rg) =>
      var n := Draw(rg.lo, rg.hi, rand(next));
      (n, next + 1)
    case None => (1, next)
  }

  /** Every count of a level's range is drawn by some draw: the draw that
      offsets the lower bound by the wanted amount. */
  lemma CommitCountCoversRange(level: string, rand: nat -> nat, next: nat, n: int)
    requires LevelRange(level).Some?
    requires LevelRange(level).value.lo <= n <= LevelRange(level).value.hi
    requires rand(next) == n - LevelRange(level).value.lo
    ensures CommitCount(level, rand, next).0 == n
  {
  }

  /** Both ends of each level's range are reachable, and so is everything in
      between: `low` can give 0 to 2 commits, `medium` 1 to 5 and `high` 3 to
      10, each from the draw that offsets the level's lower bound. */
  lemma CommitCountCoversLevels(level: string, rand: nat -> nat, next: nat, n: int)
    requires (level == "low" && 0 <= n <= 2) || (level == "medium" && 1 <= n <= 5)
             || (level == "high" && 3 <= n <= 10)
    requires rand(next) == n - (if level == "low" then 0 else if level == "medium" then 1 else 3)
    ensures CommitCount(level, rand, next) == (n, next + 1)
  {
    CommitCountCoversRange(level, rand, next, n);
  }
}

=== FILE: validation.dfy ===
/** Parameter collection: the checks the three prompts apply to what the
    operator types, and the ask-until-accepted loop around the first two.
    Reading the terminal is left out; a run's answers are given as strings. */
module Validation {
  import opened Base
  import opened JsText

  /** The earliest year a history may be generated for. */
  const MinYear := 2008

  /** The density levels the level prompt accepts, in lower case. */
  const Levels: seq<string> := ["low", "medium", "high"]

  /** The year prompt's check: `parseInt` of the trimmed answer, accepted
      when it is a number between MinYear and `currentYear` inclusive. */
  function ParseYear(input: string, currentYear: int): (r: Option<int>)
    ensures r.Some? ==> MinYear <= r.value <= currentYear
    ensures r.Some? ==> ParseInt(input) == Some(r.value)
  {
    ParseIntIgnoresTrim(input);
    match ParseInt(Trim(input))
    case None => None
    case Some(y) => if y < MinYear || y > currentYear then None else Some(y)
  }

  /** A year answer is accepted exactly when `parseInt` reads a number from
      it (trimmed or not) that lies in [MinYear, currentYear]. */
  lemma YearAcceptedIff(input: string, currentYear: int)
    ensures ParseYear(input, currentYear).Some? <==>
              ParseInt(input).Some? && MinYear <= ParseInt(input).value <= currentYear
  {
    ParseIntIgnoresTrim(input);
  }

  /** Every year of the allowed range, written in decimal with any
      surrounding whitespace, is accepted at the first attempt. */
  lemma YearInRangeAccepted(ws: string, y: int, ws': string, currentYear: int)
    requires AllWhitespace(ws) && AllWhitespace(ws')
    requires MinYear <= y <= currentYear
    ensures ParseYear(ws + ShowInt(y) + ws', currentYear) == Some(y)
  {
    assert ws' == [] || !IsDigit(ws'[0]);
    ParseIntShowInt(ws, y, ws');
    ParseIntIgnoresTrim(ws + ShowInt(y) + ws');
  }

  /** `input` spells `word` with any mix of ASCII upper and lower case, for a
      lower-case `word`. */
  predicate SameIgnoringCase(input: string, word: string) {
    |input| == |word| &&
    forall i :: 0 <= i < |word| ==> input[i] == word[i] || input[i] as int + 32 == word[i] as int
  }

  predicate LowerAsciiWord(word: string) {
    forall i :: 0 <= i < |word| ==> 'a' <= word[i] <= 'z'
  }

  /** The level prompt's check: the lower-cased answer must be one of the
      three level names; it becomes the run's level. */
  function ParseLevel(input: string): (r: Option<string>)
    ensures r.Some? ==> r.value in Levels
  {
    var level := ToLower(input);
    if level in Levels then Some(level) else None
  }

  /** An answer is accepted as a level exactly when it spells that level's
      name ignoring case; nothing is trimmed. */
  lemma LevelAcceptedIff(input: string, word: string)
    requires word in Levels
    ensures ParseLevel(input) == Some(word) <==> SameIgnoringCase(input, word)
  {
    assert LowerAsciiWord(word);
    if SameIgnoringCase(input, word) {
      assert ToLower(input) == word;
    }
  }

  /** The `map(day => parseInt(day.trim(), 10))` step: each token's number,
      or NaN (`None`). */
  function ParseTokens(tokens: seq<string>): (values: seq<Option<int>>)
    ensures |values| == |tokens|
    ensures forall i :: 0 <= i < |tokens| ==> values[i] == TokenValue(tokens[i])
  {
    Map(tokens, TokenValue)
  }

  /** What one token reads as: `parseInt` of the trimmed token. */
  function TokenValue(token: string): Option<int> {
    ParseInt(Trim(token))
  }

  /** The `filter(day => !isNaN(day) && day >= 0 && day <= 6)` step: the
      numbers that are weekday indices, in their original order. */
  function KeepWeekdays(values: seq<Option<int>>): (days: seq<int>)
    ensures |days| <= |values|
    ensures forall i :: 0 <= i < |days| ==> 0 <= days[i] <= 6
  {
    if |values| == 0 then []
    else
      var rest := KeepWeekdays(values[1..]);
      match values[0]
      case Some(v) => if 0 <= v <= 6 then [v] + rest else rest
      case None => rest
  }

  /** A value is kept exactly when it is one of the numbers and lies in 0..6. */
  lemma {:induction false} KeepWeekdaysMembers(values: seq<Option<int>>, v: int)
    ensures v in KeepWeekdays(values) <==> Some(v) in values && 0 <= v <= 6
    decreases |values|
  {
    if |values| > 0 {
      KeepWeekdaysMembers(values[1..], v);
      assert Some(v) in values <==> values[0] == Some(v) || Some(v) in values[1..];
    }
  }

  lemma {:induction false} KeepWeekdaysConcat(a: seq<Option<int>>, b: seq<Option<int>>)
    ensures KeepWeekdays(a + b) == KeepWeekdays(a) + KeepWeekdays(b)
    decreases |a|
  {
    if |a| > 0 {
      assert (a + b)[1..] == a[1..] + b;
      KeepWeekdaysConcat(a[1..], b);
    } else {
      assert a + b == b;
    }
  }

  /** The skip-days prompt: split on commas, trim and `parseInt` each token,
      keep the values 0..6 in input order. Nothing is rejected. */
  function ParseSkipDays(input: string): (days: seq<int>)
    ensures forall i :: 0 <= i < |days| ==> 0 <= days[i] <= 6
  {
    KeepWeekdays(ParseTokens(Split(input, ',')))
  }

  /** ParseTokens is determined by what each token reads as. */
  lemma ParseTokensOf(tokens: seq<string>, values: seq<Option<int>>)
    requires |tokens| == |values|
    requires forall i :: 0 <= i < |tokens| ==> ParseInt(Trim(tokens[i])) == values[i]
    ensures ParseTokens(tokens) == values
  {
  }

  /** A weekday is skipped exactly when some comma-separated token of the
      answer reads as that number. */
  lemma SkipDaysMembers(input: string, v: int)
    ensures v in ParseSkipDays(input) <==>
              0 <= v <= 6 && exists t :: t in Split(input, ',') && ParseInt(t) == Some(v)
  {
    var tokens := Split(input, ',');
    KeepWeekdaysMembers(ParseTokens(tokens), v);
    if v in ParseSkipDays(input) {
      SkipDaysMembersSound(tokens, v);
    }
    if 0 <= v <= 6 && exists t :: t in tokens && ParseInt(t) == Some(v) {
      SkipDaysMembersComplete(tokens, v);
    }
  }

  lemma SkipDaysMembersSound(tokens: seq<string>, v: int)
    requires Some(v) in ParseTokens(tokens)
    ensures exists t :: t in tokens && ParseInt(t) == Some(v)
  {
    var values := ParseTokens(tokens);
    var i :| 0 <= i < |values| && values[i] == Some(v);
    ParseIntIgnoresTrim(tokens[i]);
    assert tokens[i] in tokens;
  }

  lemma SkipDaysMembersComplete(tokens: seq<string>, v: int)
    requires exists t :: t in tokens && ParseInt(t) == Some(v)
    ensures Some(v) in ParseTokens(tokens)
  {
    var t :| t in tokens && ParseInt(t) == Some(v);
    var i :| 0 <= i < |tokens| && tokens[i] == t;
    ParseIntIgnoresTrim(t);
    assert ParseTokens(tokens)[i] == Some(v);
  }

  /** The tokens on the two sides of a comma are read independently and
      their weekdays kept in order. */
  lemma SkipDaysConcat(a: string, b: string)
    ensures ParseSkipDays(a + "," + b) == ParseSkipDays(a) + ParseSkipDays(b)
  {
    assert a + "," + b == a + [','] + b;
    SplitConcat(a, b, ',');
    ParseTokensConcat(Split(a, ','), Split(b, ','));
    KeepWeekdaysConcat(ParseTokens(Split(a, ',')), ParseTokens(Split(b, ',')));
  }

  lemma ParseTokensConcat(x: seq<string>, y: seq<string>)
    ensures ParseTokens(x + y) == ParseTokens(x) + ParseTokens(y)
  {
    MapConcat(x, y, TokenValue);
  }

  /** A single token yields its number when that is a weekday index 0..6,
      and nothing otherwise. */
  lemma SkipDaysToken(t: string)
    requires ',' !in t
    ensures ParseSkipDays(t) == match ParseInt(t)
                                case Some(v) => if 0 <= v <= 6 then [v] else []
                                case None => []
  {
    SplitWithoutSeparator(t, ',');
    ParseIntIgnoresTrim(t);
    assert ParseTokens([t]) == [ParseInt(t)];
    assert [ParseInt(t)][1..] == [];
  }

  /** The ask-until-accepted loop: answers are examined in order and the
      first accepted one, with its position, is returned; `None` when every
      answer given is rejected. */
  function FirstAccepted<T>(answers: seq<string>, accept: string -> Option<T>): (r: Option<(T, nat)>)
    ensures r.Some? ==> r.value.1 < |answers| && accept(answers[r.value.1]) == Some(r.value.0)
    ensures r.Some? ==> forall j :: 0 <= j < r.value.1 ==> accept(answers[j]).None?
    ensures r.None? <==> forall j :: 0 <= j < |answers| ==> accept(answers[j]).None?
  {
    if |answers| == 0 then None
    else
      match accept(answers[0])
      case Some(v) => Some((v, 0))
      case None =>
        match FirstAccepted(answers[1..], accept)
        case Some((v, k)) => Some((v, k + 1))
        case None => None
  }

  /** The parameters of one run. */
  datatype RunParameters = RunParameters(year: int, level: string, skipped: seq<int>)

  predicate ValidParameters(p: RunParameters, currentYear: int) {
    && MinYear <= p.year <= currentYear
    && p.level in Levels
    && forall i :: 0 <= i < |p.skipped| ==> 0 <= p.skipped[i] <= 6
  }

  /** The three prompts in order: years until one is accepted, levels until
      one is accepted, then one skip-days answer taken as it is. The year
      and the level are those of the first accepted answers. */
  function CollectParameters(yearAnswers: seq<string>, levelAnswers: seq<string>, skipAnswer: string,
                             currentYear: int): (r: Option<RunParameters>)
    ensures r.Some? ==> ValidParameters(r.value, currentYear)
    ensures r.Some? <==>
              (exists j :: 0 <= j < |yearAnswers| && ParseYear(yearAnswers[j], currentYear).Some?)
              && (exists j :: 0 <= j < |levelAnswers| && ParseLevel(levelAnswers[j]).Some?)
    ensures r.Some? ==> r.value.skipped == ParseSkipDays(skipAnswer)
    ensures r.Some? ==>
              exists j :: 0 <= j < |yearAnswers| && ParseYear(yearAnswers[j], currentYear) == Some(r.value.year)
                && forall k :: 0 <= k < j ==> ParseYear(yearAnswers[k], currentYear).None?
    ensures r.Some? ==>
              exists j :: 0 <= j < |levelAnswers| && ParseLevel(levelAnswers[j]) == Some(r.value.level)
                && forall k :: 0 <= k < j ==> ParseLevel(levelAnswers[k]).None?
  {
    var year := FirstAccepted(yearAnswers, s => ParseYear(s, currentYear));
    var level := FirstAccepted(levelAnswers, ParseLevel);
    if year.None? || level.None? then None
    else Some(RunParameters(year.value.0, level.value.0, ParseSkipDays(skipAnswer)))
  }
}
